=== FILE: README.md ===
# WorkSpark India job discovery and posting — a Dafny model

WorkSpark India is a freelance marketplace front end. Its three job pages
talk straight to a hosted database. Around those calls sits a small amount of
data shaping, and this project models it as pure functions over immutable
values:

- **Job listing** (`src/pages/Jobs.tsx`). The four filter selections (search
  text, category, budget range, experience level) become a database request.
  Here that request is a value: a list of predicate descriptors plus an
  ordering. The rows that come back are narrowed by a budget-range
  post-filter. When a request completes, the list and the loading flag
  change. "Clear Filters" resets the selections.
- **Job card derivations** (the same code appears in `Jobs.tsx` and
  `JobCategory.tsx`). These are the budget text, the posting age, the
  budget-type and experience captions, the experience badge colour and the
  skill chips.
- **Category page** (`src/pages/JobCategory.tsx`). It turns the route slug
  into a category name, computes the stats strip (total, open and average
  budget), builds the city badge and fills in the talent card defaults.
- **Job posting form** (`src/pages/PostJob.tsx`). It covers the initial form,
  single-field edits, adding and removing skills and screening questions,
  and the row that submit hands to the insert call.

JavaScript truthiness is modelled explicitly. A nullable number is an
`Option<int>`, and `Truthy` holds for `Some(n)` with `n != 0`. So
`budget_max || budget_min`, `budget_min && budget_max` and `!maxBudget` all
treat `0` like `null`.

Modules, one per concern: `Wrappers` (Option), `Sequences` (order-preserving
subsequence, no duplicates), `Text` (the JavaScript `trim`, `includes`,
`replace`, integer-to-string conversion and upper-casing), `JobRecord` (the
`jobs` row), `BudgetBucket`, `JobQuery`, `Listing`, `JobDisplay`,
`CategoryPage` and `PostJob`.

Some inputs come from outside the page code, and they become parameters:

- The clock: `TimeAgo` takes `now` in milliseconds.
- The locale's thousands grouping (`toLocaleString`): `FormatBudget` takes a
  `group: int -> string`, which the model leaves uninterpreted.
- `parseFloat`: `Submit` takes a `parse: string -> NumberValue`, where the
  result is a number or NaN.
- The database's answer: `Listing.Complete` takes a `Response`.

Some behaviour of the code is easy to misread, and the model states it as
written:

- **Stale responses.** `loadJobs` has no request-generation counter. Every
  call writes its result when it arrives, so a slower, older request can
  overwrite a newer one. `Listing.LastArrivalWins` states this arrival-order
  behaviour.
- **Zero budgets.** The effective budget is `budget_max || budget_min`, with
  JavaScript truthiness. A zero maximum therefore falls back to the minimum,
  and a zero effective budget is kept under every range.
- **Maximum without a minimum.** The budget text tests the minimum first, so
  a job with a maximum but no minimum reads "TBD".
- **Range `5k-15k`.** For jobs with budgets 3000, 7000, 15000, 20000 and
  none, the post-filter keeps three: 7000, 15000 and the job without a
  budget (`BudgetBucket.FiveJobExample`).

## Model

| member | source | states |
|---|---|---|
| JobRecord.EffectiveBudget | src/pages/Jobs.tsx:84 | the comparable amount is truthy iff the maximum or the minimum is; when truthy it is the maximum if that is truthy, else the minimum |
| BudgetBucket.FilterJobs | src/pages/Jobs.tsx:83-99 | a job is in the result iff it is in the input and passes the bucket test; the result is no longer than the input |
| BudgetBucket.ApplyBucket | src/pages/Jobs.tsx:79-100 | with range `all` the fetched list is returned unchanged; otherwise membership is input membership plus passing the test |
| BudgetBucket.FilterIsSubsequence | src/pages/Jobs.tsx:83-99 | the filter keeps the relative order of the rows it keeps |
| BudgetBucket.ApplyBucketIsSubsequence | src/pages/Jobs.tsx:79-100 | the post-filtered list is an order-preserving subsequence of the fetched list |
| BudgetBucket.FilterAllPass | src/pages/Jobs.tsx:83-99 | filtering a list whose every job passes returns it unchanged |
| BudgetBucket.ApplyBucketIdempotent | src/pages/Jobs.tsx:79-100 | applying the same range twice equals applying it once |
| BudgetBucket.NoBudgetAlwaysKept | src/pages/Jobs.tsx:84-85 | a job with neither a truthy maximum nor a truthy minimum survives every range |
| BudgetBucket.BucketRanges | src/pages/Jobs.tsx:87-98 | under-5k keeps b<5000, 5k-15k keeps 5000<=b<=15000, 15k-50k keeps 15000<=b<=50000, above-50k keeps b>50000, and any other selector keeps the job |
| BudgetBucket.MiddleBucketsOverlap | src/pages/Jobs.tsx:90-93 | an effective budget of exactly 15000 passes both middle ranges |
| BudgetBucket.FiveJobExample | src/pages/Jobs.tsx:79-100 | under 5k-15k, the jobs with budgets 3000, 7000, 15000, 20000 and none leave the 7000, 15000 and none jobs, in order |
| JobQuery.ClearFilters | src/pages/Jobs.tsx:267-272 | Clear Filters gives an empty search and `all` for category, budget range and experience, which are the initial selections |
| JobQuery.ApplyCategoryParam | src/pages/Jobs.tsx:29-32 | a present, non-empty `category` URL parameter becomes the category selection; otherwise nothing changes; the other selections never change |
| JobQuery.TextFilter | src/pages/Jobs.tsx:71 | the `.or` filter is `title.ilike.%`, the text, `%,description.ilike.%`, the text again, then `%`, each piece at its stated offset; its length is twice the text length plus 35 |
| JobQuery.TextFilterRoundTrip | src/pages/Jobs.tsx:71 | a parser that checks every piece of the shape, including both copies of the text, reads the search text back unchanged, so different texts give different filters |
| JobQuery.BuildQuery | src/pages/Jobs.tsx:51-59 | the request is on `jobs`, ordered by `created_at` descending, and its first predicate is always `status = open` |
| JobQuery.BuildQueryPredicates | src/pages/Jobs.tsx:58-72 | a category equality is present iff the category is not `all`, an experience equality iff the level is not `all`, and a text filter iff the search is non-empty; each carries the selected value, and no other predicate appears |
| JobQuery.BudgetRangeNotInQuery | src/pages/Jobs.tsx:51-72 | changing only the budget range leaves the request unchanged |
| JobQuery.ClearedQueryIsOpenOnly | src/pages/Jobs.tsx:267-272 | after Clear Filters the request's only predicate is `status = open` |
| Listing.FirstLoad | src/pages/Jobs.tsx:13-15 | the page opens loading an empty list; a failed first request leaves it empty and ends loading, a successful one shows the filtered rows |
| Listing.StartLoad | src/pages/Jobs.tsx:49 | starting a load raises the loading flag and keeps the list |
| Listing.Complete | src/pages/Jobs.tsx:74-105 | on error the previous list stays; on success the list is the budget-filtered rows (null data counts as empty); loading is false afterwards either way |
| Listing.SuccessShowsOnlyReturnedRows | src/pages/Jobs.tsx:79-102 | after a successful response the list is an order-preserving subsequence of the returned rows |
| Listing.AllRangeShowsAllRows | src/pages/Jobs.tsx:79-102 | with range `all` the list shown is exactly the returned rows |
| Listing.LastArrivalWins | src/pages/Jobs.tsx:35-37 | a successful completion decides the list regardless of any earlier completion; the order that counts is arrival order, not request order |
| Listing.ErrorKeepsPreviousList | src/pages/Jobs.tsx:76-77 | an error after a success keeps the list that success produced |
| JobDisplay.Symbol | src/pages/Jobs.tsx:110 | the symbol is the rupee sign iff the currency is `INR`, and the dollar sign otherwise, a missing currency included |
| JobDisplay.FormatBudget | src/pages/Jobs.tsx:108-127 | a falsy minimum gives "Hourly rate TBD" or "Budget TBD" even when a maximum exists; otherwise the text starts with the symbol; hourly texts end in `/hr`; non-hourly texts put the symbol before each grouped amount, with `+` when the maximum is falsy |
| JobDisplay.HourlyRoundTrip | src/pages/Jobs.tsx:112-118 | for every integer amount, negative ones included, decoding an hourly text gives back the exact range (both truthy), the exact open rate (minimum only) or TBD |
| JobDisplay.HourlyFormatExample | src/pages/Jobs.tsx:108-127 | an INR hourly job from 500 to 1500 reads "₹500-1500/hr" |
| JobDisplay.FixedFormatExample | src/pages/Jobs.tsx:108-127 | a USD fixed job from 5000 with no maximum reads "$", the grouped 5000, then "+" |
| JobDisplay.AgeOf | src/pages/Jobs.tsx:129-134 | the age is "just posted" iff less than one hour elapsed, including posting times in the future |
| JobDisplay.TimeAgo | src/pages/Jobs.tsx:129-142 | the label is "Just posted" iff now − created < 3 600 000 ms |
| JobDisplay.HoursTier | src/pages/Jobs.tsx:132-135 | the label is "{k}h ago" iff 1 <= k < 24 and the elapsed time is in [k, k+1) hours |
| JobDisplay.DaysTier | src/pages/Jobs.tsx:137-138 | the label is "{k}d ago" iff 1 <= k < 7 and the elapsed time is in [k, k+1) days |
| JobDisplay.WeeksTier | src/pages/Jobs.tsx:140-141 | the label is "{k}w ago" iff k >= 1 and the elapsed time is in [k, k+1) weeks; the weeks are unbounded and the floors compose |
| JobDisplay.AgeLabelRoundTrip | src/pages/Jobs.tsx:134-141 | every produced label parses back to its tier and count, so no two ages share a label |
| JobDisplay.TimeAgoExamples | src/pages/Jobs.tsx:129-142 | 30 minutes is "Just posted", 90 minutes is "1h ago", 10 days is "1w ago" |
| JobDisplay.BudgetTypeLabel | src/pages/JobCategory.tsx:332-333 | `fixed` gives "Fixed Price", `hourly` gives "Hourly", and every other value gives "Milestone" (each iff) |
| JobDisplay.ExperienceLabel | src/pages/Jobs.tsx:358 | same length; the first character is upper-cased and the rest kept |
| JobDisplay.ExperienceVariant | src/pages/JobCategory.tsx:381-385 | entry gives secondary, intermediate gives default, anything else gives destructive (each iff) |
| JobDisplay.JobSkillChips | src/pages/JobCategory.tsx:344-356 | the first min(5, n) skills are shown, as a prefix; "+k more" appears iff there are more than 5, and then k = n − 5 |
| Text.Trim | src/pages/PostJob.tsx:96 | the result is the input minus leading and trailing JavaScript whitespace, and neither starts nor ends with whitespace |
| Text.TrimIdempotent | src/pages/PostJob.tsx:96 | trimming twice is trimming once |
| Text.Includes | src/pages/JobCategory.tsx:129 | true iff the needle occurs at some position of the text |
| Text.ReplaceFirst | src/pages/JobCategory.tsx:32 | only the first occurrence is replaced; the length is kept; without an occurrence the text is unchanged |
| Text.ReplaceFirstRemovesOne | src/pages/JobCategory.tsx:32 | exactly one `-` disappears and exactly one space appears |
| Text.ParseNatToString | src/pages/Jobs.tsx:114 | decimal rendering of a number parses back to that number |
| Text.ParseIntToString | src/pages/Jobs.tsx:114 | the signed rendering of any integer, a minus sign and digits, reads as an integer text and parses back to that integer |
| Text.Capitalize | src/pages/JobCategory.tsx:385 | only the first character changes, to its upper case |
| Text.CapitalizeIdempotent | src/pages/JobCategory.tsx:385 | capitalising twice is capitalising once |
| CategoryPage.LookupName | src/pages/JobCategory.tsx:24-32 | nothing is looked up for a missing or empty slug; otherwise the first `-` (by `IndexOf`'s first-position contract) becomes a space and every other character is kept, so one `-` fewer and one space more; a slug without `-` is unchanged |
| CategoryPage.LookupNameExample | src/pages/JobCategory.tsx:32 | "web-app-dev" is looked up as "web app-dev" |
| CategoryPage.CountOpen | src/pages/JobCategory.tsx:81 | the open count is at most the row count, and equal to it iff every row is open (so a single row counts 1 iff it is open) |
| CategoryPage.CountOpenAppend | src/pages/JobCategory.tsx:81 | the count of a concatenation is the sum of the counts; with the single-row case this fixes the count as the number of open rows |
| CategoryPage.TruthyBudgets | src/pages/JobCategory.tsx:82 | the averaged values are nonzero, at most one per row, include every truthy `budget_max`, and each is the truthy `budget_max` of some row |
| CategoryPage.TruthyBudgetsAppend | src/pages/JobCategory.tsx:82 | collecting the truthy maxima distributes over concatenation, so a value appears once per row carrying it, in row order |
| CategoryPage.CategoryStats | src/pages/JobCategory.tsx:79-86 | total is the row count; active is the open-row count; the average is taken over the truthy `budget_max` values |
| CategoryPage.StatsExample | src/pages/JobCategory.tsx:79-86 | maxima 10, 10, 40, 0 and none with three open rows give total 5, active 3 and average 20: repeated maxima both count, 0 and null are skipped |
| CategoryPage.Average | src/pages/JobCategory.tsx:82-83 | the average is 0 when there are no values, and otherwise average × count = sum |
| CategoryPage.AverageWithinBounds | src/pages/JobCategory.tsx:82-83 | the average lies between any lower and upper bound of the truthy maxima |
| CategoryPage.FindCity | src/pages/JobCategory.tsx:128-129 | a found city is in the list, is contained in the location and is the first such in list order; none is found iff the location is missing or contains no listed city |
| CategoryPage.CityBadge | src/pages/JobCategory.tsx:127-130 | the badge is "Top {name} Expert {city}" for the found city, and "... India" iff none is found |
| CategoryPage.CityBadgeListOrder | src/pages/JobCategory.tsx:128-130 | "Pune, Mumbai" is badged Mumbai: list order wins over text order |
| CategoryPage.TalentCardOf | src/pages/JobCategory.tsx:225-273 | a falsy rating shows "New"; rate and job count are the JavaScript "or" (`JobRecord.Or`) of the value with 500 and with 0; the letter starts the name, or is "T" for a missing or empty name; at most the first 3 skills are shown, as a prefix |
| CategoryPage.TalentCardFallbacks | src/pages/JobCategory.tsx:245-262 | a truthy rate is shown as it is and a falsy one as 500; the job count shows 0 iff it is falsy; a named talent's letter is the name's first character |
| PostJob.InitialFormDefaults | src/pages/PostJob.tsx:20-35 | the initial form is fixed-price, intermediate and remote, with empty texts and lists and empty pending inputs |
| PostJob.HandleInputChange | src/pages/PostJob.tsx:91-93 | the named field takes the value, and every other field and both lists are unchanged |
| PostJob.InputChangeLaws | src/pages/PostJob.tsx:91-93 | writing a field's own value changes nothing, and of two writes to one field only the last counts |
| PostJob.AddSkill | src/pages/PostJob.tsx:95-103 | the trimmed skill is appended and the input cleared iff it is non-empty and not yet listed; otherwise the editor is unchanged |
| PostJob.AddSkillKeepsNoDuplicates | src/pages/PostJob.tsx:96-100 | a duplicate-free skill list stays duplicate-free |
| PostJob.RemoveAll | src/pages/PostJob.tsx:108 | the value is absent afterwards, and every other value is present iff it was before |
| PostJob.RemoveSkill | src/pages/PostJob.tsx:105-110 | the list becomes the `filter` result `RemoveAll`: every copy of the skill goes, every other skill stays, the remaining skills keep their order (a subsequence of the old list), and no other field changes |
| PostJob.RemoveAllIsSubsequence | src/pages/PostJob.tsx:108 | removal keeps the order of the remaining skills |
| PostJob.RemoveAllKeepsNoDuplicates | src/pages/PostJob.tsx:108 | removal keeps a duplicate-free list duplicate-free |
| PostJob.AddThenRemoveSkill | src/pages/PostJob.tsx:95-110 | removing a skill that was just added restores the previous list |
| PostJob.AddQuestion | src/pages/PostJob.tsx:112-120 | a non-blank trimmed question is appended (repeats allowed) and the input cleared; a blank one leaves everything unchanged |
| PostJob.RemoveAt | src/pages/PostJob.tsx:125 | an index in range removes exactly that position and the list shrinks by one; any other index leaves the list unchanged |
| PostJob.RemoveQuestion | src/pages/PostJob.tsx:122-127 | exactly the indexed question goes and nothing else in the form changes; an out-of-range index changes nothing |
| PostJob.AddThenRemoveQuestion | src/pages/PostJob.tsx:112-127 | removing the question just added, by its position, restores the list |
| PostJob.BudgetValue | src/pages/PostJob.tsx:142-143 | an amount is null iff its text is empty; otherwise it is the parse of the text (possibly NaN) |
| PostJob.Submit | src/pages/PostJob.tsx:129-151 | nothing is sent without a user; otherwise the row belongs to the user, its status is `open`, each amount is null exactly for empty text and the parse of the text otherwise, and every other field is the form's |
| PostJob.SubmitInitialForm | src/pages/PostJob.tsx:20-35 | the untouched form is sent as an open, fixed-price, intermediate, remote job with null amounts and no skills or questions |
| PostJob.SubmitAfterAmountEdit | src/pages/PostJob.tsx:91-93 | an edited amount reaches the row parsed, or null when emptied, and the other amount is the form's |

## Left out

- The database calls are not modelled: running the request, `ilike`
  matching, `.contains`, `.limit`, `.single` and the insert. Neither are the
  session, the profile and role check in `checkAuth` or the category and
  skill lists. They are an external service; the request is modelled only
  as a descriptor value, and the response is a parameter.
- React state and effect scheduling, rendering, navigation, toasts, the
  submit `isLoading` flag and error logging (`console.error`) are not
  modelled. They are presentation.
- The overlapping `loadJobs` calls are not modelled as concurrency. The code
  has no guard against stale responses, so there is no property to prove
  about them beyond `Listing.LastArrivalWins`.
- Floating point is left out. Budgets, rates and job counts are integers.
  `Math.round` of the average is not modelled. `${n}` for non-integral
  numbers, or for numbers at or above 10^21, is not modelled either.
- Text.IntToString: models JavaScript number-to-string only for integers,
  because budgets are modelled as integers.
- JobDisplay.FormatBudget: the locale's thousands grouping is an
  uninterpreted parameter, because it depends on the runtime locale.
- PostJob.Submit: `parseFloat` is the parameter `parse`, because its full
  grammar is out of scope. The row's amounts are stated in terms of it.
- PostJob.Submit: admits an empty title or description. The form's
  `required` inputs (`PostJob.tsx:213` and `:226`) stop such a submit in
  the browser before `handleSubmit` runs, and browser form validation is not
  modelled.
- CategoryPage.CategoryStats: takes the rows. When the stats query returns
  no data, the page keeps its previous stats, and that branch is not
  modelled.
- JobDisplay.TimeAgo: takes the creation time already converted to milliseconds. Date-string
  parsing and an unparsable date (NaN, which renders "NaNw ago") are not
  modelled.
- Text.Capitalize: upper-cases ASCII letters only, because full Unicode
  case mapping (for example `ß` to `SS`) is out of scope.
- JobDisplay.ExperienceLabel: takes a string. A null `experience_level`
  would make the card's render throw, and that is not modelled.
- The talent avatar letter is taken by code point, not by UTF-16 code unit.
- `handleInputChange` can write any key. The model covers only the fields
  the form's inputs pass. The checkbox's `"indeterminate"` state is not
  modelled.
- The `jobs` row is modelled with the columns the pages read. Attachments,
  featured flag, expiry and update time are not read by the core.
- Presentational files with no logic are not part of this model:
  `Pricing.tsx`, `FAQ.tsx`, `ExploreTalents.tsx`, `Footer.tsx`,
  `HowItWorks.tsx`, `HeroSection.tsx`, `Header.tsx`, `JobCategories.tsx`,
  `Index.tsx` and `ui/button.tsx`.
- The poster check in `checkAuth` (`PostJob.tsx:46-71`) is not modelled. It
  runs on the client: without a session the page goes to sign-in, and a
  profile whose `user_type` is not `buyer` is refused with a toast. `Submit`
  takes its result as the `user` parameter, and `None` stands for "no
  poster".

=== FILE: bucket.dfy ===
/** The budget-range post-filter the job listing applies to the rows the
    database returned (the database query has no notion of the derived
    budget). */
module BudgetBucket {
  import opened Wrappers
  import opened JobRecord
  import opened Sequences

  /** The budget-range selector value that disables the filter. */
  const AllBuckets: string := "all"

  /** The ranges the selector's `switch` distinguishes; `AnyAmount` is its
      `default` branch. */
  datatype Range = Under5k | From5kTo15k | From15kTo50k | Above50k | AnyAmount

  function RangeOf(bucket: string): Range {
    if bucket == "under-5k" then Under5k
    else if bucket == "5k-15k" then From5kTo15k
    else if bucket == "15k-50k" then From15kTo50k
    else if bucket == "above-50k" then Above50k
    else AnyAmount
  }

  predicate InRange(r: Range, b: int) {
    match r
    case Under5k => b < 5000
    case From5kTo15k => 5000 <= b <= 15000
    case From15kTo50k => 15000 <= b <= 50000
    case Above50k => b > 50000
    case AnyAmount => true
  }

  /** The per-job test inside the filter callback. A job whose effective
      budget is falsy (no bounds, or zero) passes every bucket; an unknown
      bucket passes every job. */
  predicate Keeps(bucket: string, job: Job) {
    var b := EffectiveBudget(job);
    !Truthy(b) || InRange(RangeOf(bucket), b.value)
  }

  /** `jobs.filter(job => Keeps(bucket, job))`: an order-preserving filter.
      A job is in the result exactly when it is in the input and passes. */
  function FilterJobs(bucket: string, jobs: seq<Job>): (r: seq<Job>)
    ensures |r| <= |jobs|
    ensures forall j :: j in r <==> j in jobs && Keeps(bucket, j)
    ensures forall k :: 0 <= k < |r| ==> Keeps(bucket, r[k])
  {
    if jobs == [] then []
    else if Keeps(bucket, jobs[0]) then [jobs[0]] + FilterJobs(bucket, jobs[1..])
    else FilterJobs(bucket, jobs[1..])
  }

  /** The budget step of `loadJobs`: with the `all` selector the fetched
      list is shown as is, otherwise it is filtered. */
  function ApplyBucket(bucket: string, jobs: seq<Job>): (r: seq<Job>)
    ensures bucket == AllBuckets ==> r == jobs
    ensures forall j :: j in r <==> j in jobs && (bucket == AllBuckets || Keeps(bucket, j))
  {
    if bucket != AllBuckets then FilterJobs(bucket, jobs) else jobs
  }

  /** The filter keeps the relative order of the rows it keeps. */
  lemma {:induction false} FilterIsSubsequence(bucket: string, jobs: seq<Job>)
    ensures Subsequence(FilterJobs(bucket, jobs), jobs)
  {
    if jobs != [] {
      FilterIsSubsequence(bucket, jobs[1..]);
      var rest := FilterJobs(bucket, jobs[1..]);
      if Keeps(bucket, jobs[0]) {
        assert ([jobs[0]] + rest)[1..] == rest;
      } else if rest != [] {
        // rest[0] may equal jobs[0] only if jobs[0] passes; it does not
        assert rest[0] in rest;
        assert rest[0] != jobs[0];
      }
    }
  }

  lemma ApplyBucketIsSubsequence(bucket: string, jobs: seq<Job>)
    ensures Subsequence(ApplyBucket(bucket, jobs), jobs)
  {
    if bucket != AllBuckets {
      FilterIsSubsequence(bucket, jobs);
    } else {
      SubsequenceReflexive(jobs);
    }
  }

  /** Filtering a list every element of which passes changes nothing. */
  lemma {:induction false} FilterAllPass(bucket: string, jobs: seq<Job>)
    requires forall k :: 0 <= k < |jobs| ==> Keeps(bucket, jobs[k])
    ensures FilterJobs(bucket, jobs) == jobs
  {
    if jobs != [] {
      FilterAllPass(bucket, jobs[1..]);
      assert [jobs[0]] + jobs[1..] == jobs;
    }
  }

  /** Applying the same bucket twice is the same as applying it once. */
  lemma ApplyBucketIdempotent(bucket: string, jobs: seq<Job>)
    ensures ApplyBucket(bucket, ApplyBucket(bucket, jobs)) == ApplyBucket(bucket, jobs)
  {
    if bucket != AllBuckets {
      FilterAllPass(bucket, FilterJobs(bucket, jobs));
    }
  }

  /** A job without a truthy budget bound is never filtered out. */
  lemma NoBudgetAlwaysKept(bucket: string, jobs: seq<Job>, j: Job)
    requires j in jobs && !Truthy(j.budgetMax) && !Truthy(j.budgetMin)
    ensures j in ApplyBucket(bucket, jobs)
  {
  }

  /** The four recognised buckets, in terms of the effective amount `b` of
      a job with a truthy effective budget; any other selector keeps the
      job. The two middle buckets share the amount 15000. */
  lemma BucketRanges(bucket: string, job: Job)
    requires Truthy(EffectiveBudget(job))
    ensures var b := EffectiveBudget(job).value;
      && (bucket == "under-5k" ==> (Keeps(bucket, job) <==> b < 5000))
      && (bucket == "5k-15k" ==> (Keeps(bucket, job) <==> 5000 <= b <= 15000))
      && (bucket == "15k-50k" ==> (Keeps(bucket, job) <==> 15000 <= b <= 50000))
      && (bucket == "above-50k" ==> (Keeps(bucket, job) <==> b > 50000))
      && (bucket !in {"under-5k", "5k-15k", "15k-50k", "above-50k"} ==> Keeps(bucket, job))
  {
  }

  /** An amount of exactly 15000 passes both middle buckets. */
  lemma MiddleBucketsOverlap(job: Job)
    requires EffectiveBudget(job) == Some(15000)
    ensures Keeps("5k-15k", job) && Keeps("15k-50k", job)
  {
  }

  /** Under `5k-15k`, of jobs with effective budgets 3000, 7000, 15000,
      20000 and none, the three with 7000, 15000 and none remain, in order. */
  lemma FiveJobExample(j1: Job, j2: Job, j3: Job, j4: Job, j5: Job)
    requires EffectiveBudget(j1) == Some(3000) && EffectiveBudget(j2) == Some(7000)
    requires EffectiveBudget(j3) == Some(15000) && EffectiveBudget(j4) == Some(20000)
    requires EffectiveBudget(j5) == None
    ensures ApplyBucket("5k-15k", [j1, j2, j3, j4, j5]) == [j2, j3, j5]
  {
    var b := "5k-15k";
    assert RangeOf(b) == From5kTo15k;
    var f5 := FilterJobs(b, [j5]);
    assert f5 == [j5] by {
      assert Keeps(b, j5);
      FilterStep(b, [j5]);
      assert [j5][1..] == [];
    }
    var f4 := FilterJobs(b, [j4, j5]);
    assert f4 == [j5] by {
      assert !Keeps(b, j4);
      FilterStep(b, [j4, j5]);
      assert [j4, j5][1..] == [j5];
    }
    var f3 := FilterJobs(b, [j3, j4, j5]);
    assert f3 == [j3, j5] by {
      assert Keeps(b, j3);
      FilterStep(b, [j3, j4, j5]);
      assert [j3, j4, j5][1..] == [j4, j5];
    }
    var f2 := FilterJobs(b, [j2, j3, j4, j5]);
    assert f2 == [j2, j3, j5] by {
      assert Keeps(b, j2);
      FilterStep(b, [j2, j3, j4, j5]);
      assert [j2, j3, j4, j5][1..] == [j3, j4, j5];
    }
    assert FilterJobs(b, [j1, j2, j3, j4, j5]) == [j2, j3, j5] by {
      assert !Keeps(b, j1);
      FilterStep(b, [j1, j2, j3, j4, j5]);
      assert [j1, j2, j3, j4, j5][1..] == [j2, j3, j4, j5];
    }
  }

  /** One step of the filter. */
  lemma FilterStep(bucket: string, jobs: seq<Job>)
    requires jobs != []
    ensures FilterJobs(bucket, jobs) ==
      (if Keeps(bucket, jobs[0]) then [jobs[0]] else []) + FilterJobs(bucket, jobs[1..])
  {
  }
}

=== FILE: category.dfy ===
/** The category page: the route slug to category-name rewrite, the stats
    strip, the city badge and the defaults of a talent card. Its job cards
    use the same derivations as the listing (module JobDisplay). */
module CategoryPage {
  import opened Wrappers
  import opened Text
  import opened JobRecord

  // ---- slug ------------------------------------------------------------

  /** The name looked up for the `categoryName` route parameter: nothing is
      loaded for a missing or empty parameter, otherwise the FIRST `-`
      becomes a space and any later ones stay. */
  function LookupName(param: Option<string>): (r: Option<string>)
    ensures r.None? <==> param.None? || param.value == ""
    ensures r.Some? ==> |r.value| == |param.value|
    ensures r.Some? && '-' !in param.value ==> r.value == param.value
    ensures r.Some? && '-' in param.value ==>
              Count(r.value, '-') == Count(param.value, '-') - 1
              && Count(r.value, ' ') == Count(param.value, ' ') + 1
    ensures r.Some? && '-' in param.value ==>
              var i := IndexOf(param.value, '-');
              r.value == param.value[..i] + " " + param.value[i + 1..]
  {
    if param.None? || param.value == "" then None
    else
      var s := param.value;
      var r := ReplaceFirst(s, '-', ' ');
      assert '-' in s ==> Count(r, '-') == Count(s, '-') - 1 && Count(r, ' ') == Count(s, ' ') + 1 by {
        if '-' in s { ReplaceFirstRemovesOne(s, '-', ' '); }
      }
      Some(r)
  }

  /** "web-app-dev" is looked up as "web app-dev". */
  lemma LookupNameExample()
    ensures LookupName(Some("web-app-dev")) == Some("web app-dev")
  {
    var s := "web-app-dev";
    IndexOfFirst(s, '-', 3);
    assert s[..3] == "web" && s[4..] == "app-dev";
    assert s[..3] + [' '] + s[4..] == "web app-dev";
  }

  // ---- stats -----------------------------------------------------------

  /** One row of the stats query: the `budget_max` and `status` columns. */
  datatype StatRow = StatRow(budgetMax: Option<int>, status: Option<string>)

  datatype Stats = Stats(totalJobs: nat, activeJobs: nat, avgBudget: real)

  /** Rows whose status is `open`. Together with `CountOpenAppend` the
      contract fixes the count: a one-row list counts 1 exactly when its row
      is open. */
  function CountOpen(rows: seq<StatRow>): (n: nat)
    ensures n <= |rows|
    ensures n == |rows| <==> forall k :: 0 <= k < |rows| ==> rows[k].status == Some("open")
  {
    if rows == [] then 0
    else (if rows[0].status == Some("open") then 1 else 0) + CountOpen(rows[1..])
  }

  /** Counting open rows distributes over concatenation. */
  lemma {:induction false} CountOpenAppend(a: seq<StatRow>, b: seq<StatRow>)
    ensures CountOpen(a + b) == CountOpen(a) + CountOpen(b)
  {
    if a == [] {
      assert a + b == b;
    } else {
      assert (a + b)[1..] == a[1..] + b;
      CountOpenAppend(a[1..], b);
    }
  }

  /** Row `i` has a truthy `budget_max` equal to `v`. */
  predicate MaxAt(rows: seq<StatRow>, i: int, v: int) {
    0 <= i < |rows| && Truthy(rows[i].budgetMax) && rows[i].budgetMax.value == v
  }

  /** `v` is the truthy `budget_max` of some row. */
  predicate IsTruthyMax(rows: seq<StatRow>, v: int) {
    exists i :: 0 <= i < |rows| && MaxAt(rows, i, v)
  }

  /** The truthy `budget_max` values, in row order: every truthy maximum is
      listed, and every listed value is the truthy maximum of some row.
      Together with `TruthyBudgetsAppend` the contract fixes the list,
      repeats included. */
  function TruthyBudgets(rows: seq<StatRow>): (bs: seq<int>)
    ensures |bs| <= |rows|
    ensures forall k :: 0 <= k < |bs| ==> bs[k] != 0
    ensures forall i :: 0 <= i < |rows| && Truthy(rows[i].budgetMax) ==> rows[i].budgetMax.value in bs
    ensures forall k :: 0 <= k < |bs| ==> IsTruthyMax(rows, bs[k])
  {
    if rows == [] then []
    else
      var rest := TruthyBudgets(rows[1..]);
      var m := rows[0].budgetMax;
      var bs := if Truthy(m) then [m.value] + rest else rest;
      SourcesStep(rows, rest, bs);
      assert forall i :: 1 <= i < |rows| && Truthy(rows[i].budgetMax) ==> rows[i].budgetMax.value in rest by {
        forall i | 1 <= i < |rows| && Truthy(rows[i].budgetMax) ensures rows[i].budgetMax.value in rest {
          assert rows[1..][i - 1] == rows[i];
        }
      }
      bs
  }

  /** Every value of `rest` comes from a row after the first, and `bs` is
      `rest` with the first row's truthy maximum in front when it has one:
      then every value of `bs` comes from a row. */
  lemma SourcesStep(rows: seq<StatRow>, rest: seq<int>, bs: seq<int>)
    requires rows != []
    requires forall k :: 0 <= k < |rest| ==> IsTruthyMax(rows[1..], rest[k])
    requires bs == if Truthy(rows[0].budgetMax) then [rows[0].budgetMax.value] + rest else rest
    ensures forall k :: 0 <= k < |bs| ==> IsTruthyMax(rows, bs[k])
  {
    forall k | 0 <= k < |bs| ensures IsTruthyMax(rows, bs[k]) {
      if Truthy(rows[0].budgetMax) && k == 0 {
        assert MaxAt(rows, 0, bs[k]);
      } else {
        var k' := if Truthy(rows[0].budgetMax) then k - 1 else k;
        assert bs[k] == rest[k'];
        var i :| 0 <= i < |rows[1..]| && MaxAt(rows[1..], i, rest[k']);
        assert rows[1..][i] == rows[i + 1];
        assert MaxAt(rows, i + 1, bs[k]);
      }
    }
  }

  /** Collecting the truthy maxima distributes over concatenation, so a
      value appears once per row that carries it. */
  lemma {:induction false} TruthyBudgetsAppend(a: seq<StatRow>, b: seq<StatRow>)
    ensures TruthyBudgets(a + b) == TruthyBudgets(a) + TruthyBudgets(b)
  {
    if a == [] {
      assert a + b == b;
    } else {
      assert (a + b)[1..] == a[1..] + b;
      TruthyBudgetsAppend(a[1..], b);
    }
  }

  function Sum(bs: seq<int>): int {
    if bs == [] then 0 else bs[0] + Sum(bs[1..])
  }

  /** The stats strip: all rows, open rows, and the mean of the truthy
      maxima (zero when there are none). */
  function CategoryStats(rows: seq<StatRow>): (s: Stats)
    ensures s.totalJobs == |rows|
    ensures s.activeJobs == CountOpen(rows) && s.activeJobs <= s.totalJobs
    ensures s.avgBudget == Average(TruthyBudgets(rows))
  {
    Stats(|rows|, CountOpen(rows), Average(TruthyBudgets(rows)))
  }

  /** `budgets.reduce(+) / budgets.length`, or 0 for no budgets. */
  function Average(bs: seq<int>): (avg: real)
    ensures |bs| == 0 ==> avg == 0.0
    ensures |bs| > 0 ==> avg * (|bs| as real) == Sum(bs) as real
  {
    if |bs| > 0 then Mean(Sum(bs) as real, |bs| as real) else 0.0
  }

  /** Division of a total by a positive count. */
  function Mean(total: real, count: real): (m: real)
    requires count > 0.0
    ensures m * count == total
  {
    total / count
  }

  lemma CastProduct(a: int, n: int)
    ensures (a as real) * (n as real) == (n * a) as real
  {
  }

  /** A mean of amounts between `lo` and `hi` lies between them. */
  lemma MeanBounds(total: real, count: real, lo: real, hi: real)
    requires count > 0.0 && lo * count <= total <= hi * count
    ensures lo <= Mean(total, count) <= hi
  {
    var m := Mean(total, count);
    assert (m - lo) * count >= 0.0;
    assert (hi - m) * count >= 0.0;
  }

  /** Five rows with maxima 10, 10, 40, 0 and none, three of them open:
      both tens count towards the average, which is 20. */
  lemma StatsExample()
    ensures CategoryStats([
              StatRow(Some(10), Some("open")), StatRow(Some(10), Some("closed")),
              StatRow(Some(40), None), StatRow(Some(0), Some("open")),
              StatRow(None, Some("open"))])
            == Stats(5, 3, 20.0)
  {
    var rows := [
      StatRow(Some(10), Some("open")), StatRow(Some(10), Some("closed")),
      StatRow(Some(40), None), StatRow(Some(0), Some("open")),
      StatRow(None, Some("open"))];
    assert TruthyBudgets(rows[3..]) == [];
    assert TruthyBudgets(rows) == [10, 10, 40];
    assert Sum([10, 10, 40]) == 60;
    assert CountOpen(rows) == 3;
    var avg := Average([10, 10, 40]);
    assert avg * 3.0 == 60.0;
  }

  /** Every truthy maximum is within bounds that hold for all rows. */
  lemma {:induction false} TruthyBudgetsBounded(rows: seq<StatRow>, lo: int, hi: int)
    requires forall k :: 0 <= k < |rows| && rows[k].budgetMax.Some? && rows[k].budgetMax.value != 0
               ==> lo <= rows[k].budgetMax.value <= hi
    ensures forall k :: 0 <= k < |TruthyBudgets(rows)| ==> lo <= TruthyBudgets(rows)[k] <= hi
  {
    if rows != [] {
      assert forall k :: 0 <= k < |rows[1..]| ==> rows[1..][k] == rows[k + 1];
      TruthyBudgetsBounded(rows[1..], lo, hi);
    }
  }

  lemma {:induction false} SumBounds(bs: seq<int>, lo: int, hi: int)
    requires forall k :: 0 <= k < |bs| ==> lo <= bs[k] <= hi
    ensures |bs| * lo <= Sum(bs) <= |bs| * hi
  {
    if bs != [] {
      SumBounds(bs[1..], lo, hi);
    }
  }

  /** The mean lies between the smallest and largest truthy maximum. */
  lemma AverageWithinBounds(rows: seq<StatRow>, lo: int, hi: int)
    requires forall k :: 0 <= k < |rows| && rows[k].budgetMax.Some? && rows[k].budgetMax.value != 0
               ==> lo <= rows[k].budgetMax.value <= hi
    requires |TruthyBudgets(rows)| > 0
    ensures lo as real <= CategoryStats(rows).avgBudget <= hi as real
  {
    var bs := TruthyBudgets(rows);
    TruthyBudgetsBounded(rows, lo, hi);
    SumBounds(bs, lo, hi);
    MeanOfBoundedTotal(Sum(bs), |bs|, lo, hi);
  }

  /** The integer form of `MeanBounds`. */
  lemma MeanOfBoundedTotal(total: int, n: int, lo: int, hi: int)
    requires n > 0 && n * lo <= total <= n * hi
    ensures lo as real <= Mean(total as real, n as real) <= hi as real
  {
    CastProduct(lo, n);
    CastProduct(hi, n);
    MeanBounds(total as real, n as real, lo as real, hi as real);
  }

  // ---- city badge ------------------------------------------------------

  const Cities: seq<string> :=
    ["Mumbai", "Delhi", "Bangalore", "Chennai", "Kolkata", "Hyderabad", "Pune", "Ahmedabad"]

  /** Position `k` holds a city the location contains, and no earlier one
      does. */
  predicate IsFirstCity(cities: seq<string>, location: string, k: int) {
    && 0 <= k < |cities|
    && Includes(location, cities[k])
    && forall j :: 0 <= j < k ==> !Includes(location, cities[j])
  }

  /** `cities.find(city => location?.includes(city))`: the first city of the
      list that the location contains; none for a missing location. */
  function FindCity(cities: seq<string>, location: Option<string>): (r: Option<string>)
    ensures r.Some? ==> r.value in cities && location.Some? && Includes(location.value, r.value)
    ensures r.Some? ==> exists k :: IsFirstCity(cities, location.value, k) && cities[k] == r.value
    ensures r.None? ==> location.None? || forall c :: c in cities ==> !Includes(location.value, c)
  {
    if location.None? || cities == [] then None
    else if Includes(location.value, cities[0]) then Some(cities[0])
    else
      var r := FindCity(cities[1..], location);
      assert r.Some? ==> exists k :: IsFirstCity(cities, location.value, k) && cities[k] == r.value by {
        if r.Some? {
          var k :| IsFirstCity(cities[1..], location.value, k) && cities[1..][k] == r.value;
          assert IsFirstCity(cities, location.value, k + 1);
        }
      }
      r
  }

  /** `getCityBadge`: "Top {name} Expert {city}" for the first listed city in
      the location, "Top {name} Expert India" otherwise. */
  function CityBadge(categoryName: string, location: Option<string>): (r: string)
    ensures var prefix := "Top " + categoryName + " Expert ";
      && StartsWith(r, prefix)
      && (r == prefix + "India" <==> FindCity(Cities, location).None?)
      && (FindCity(Cities, location).Some? ==> r == prefix + FindCity(Cities, location).value)
  {
    var prefix := "Top " + categoryName + " Expert ";
    var city := FindCity(Cities, location);
    if city.Some? then
      assert city.value != "India" by { assert city.value in Cities; }
      assert (prefix + city.value)[|prefix|..] == city.value;
      prefix + city.value
    else prefix + "India"
  }

  /** A location naming two cities is badged with the one listed first,
      not the one written first. */
  lemma CityBadgeListOrder()
    ensures CityBadge("Design", Some("Pune, Mumbai")) == "Top Design Expert Mumbai"
  {
    assert OccursAt("Pune, Mumbai", "Mumbai", 6);
  }

  // ---- talent card -----------------------------------------------------

  /** A row of `talent_profiles` joined with the profile fields the card
      reads. */
  datatype Talent = Talent(
    fullName: Option<string>,
    location: Option<string>,
    rating: Option<real>,
    hourlyRate: Option<int>,
    totalJobs: Option<int>,
    skills: Option<seq<string>>
  )

  datatype RatingShown = Score(value: real) | NewTalent

  datatype TalentCard = TalentCard(
    initial: string,
    rating: RatingShown,
    hourlyRate: int,
    jobsDone: int,
    skills: seq<string>
  )

  const DefaultHourlyRate: int := 500

  /** The card's displayed values: falsy rating reads "New", falsy hourly
      rate reads 500, falsy job count reads 0, the avatar letter defaults to
      "T", and at most the first three skills are shown. */
  function TalentCardOf(t: Talent): (c: TalentCard)
    ensures c.rating == NewTalent <==> t.rating.None? || t.rating.value == 0.0
    ensures c.rating.Score? ==> t.rating == Some(c.rating.value)
    ensures Some(c.hourlyRate) == Or(t.hourlyRate, Some(DefaultHourlyRate))
    ensures Some(c.jobsDone) == Or(t.totalJobs, Some(0))
    ensures |c.initial| == 1
    ensures t.fullName.Some? && t.fullName.value != "" ==> StartsWith(t.fullName.value, c.initial)
    ensures t.fullName.None? || t.fullName.value == "" ==> c.initial == "T"
    ensures var all := t.skills.GetOr([]);
      |c.skills| == (if |all| < 3 then |all| else 3) && c.skills == all[..|c.skills|]
  {
    var all := t.skills.GetOr([]);
    TalentCard(
      if t.fullName.Some? && t.fullName.value != "" then t.fullName.value[..1] else "T",
      if t.rating.Some? && t.rating.value != 0.0 then Score(t.rating.value) else NewTalent,
      if t.hourlyRate.Some? && t.hourlyRate.value != 0 then t.hourlyRate.value else DefaultHourlyRate,
      if t.totalJobs.Some? && t.totalJobs.value != 0 then t.totalJobs.value else 0,
      if |all| < 3 then all else all[..3])
  }

  /** A falsy rate or job count falls back to its default and a truthy one
      is shown as it is; a named talent's avatar letter is the first letter
      of the name. */
  lemma TalentCardFallbacks(t: Talent)
    ensures Truthy(t.hourlyRate) ==> TalentCardOf(t).hourlyRate == t.hourlyRate.value
    ensures !Truthy(t.hourlyRate) ==> TalentCardOf(t).hourlyRate == DefaultHourlyRate
    ensures TalentCardOf(t).jobsDone == 0 <==> !Truthy(t.totalJobs)
    ensures t.fullName.Some? && t.fullName.value != "" ==> TalentCardOf(t).initial == [t.fullName.value[0]]
  {
    var c := TalentCardOf(t);
    if t.fullName.Some? && t.fullName.value != "" {
      assert StartsWith(t.fullName.value, c.initial);
      assert c.initial[0] == t.fullName.value[0];
    }
  }
}

=== FILE: display.dfy ===
/** Display derivations of a job card, shared verbatim by the listing page
    and the category page: the budget text, the posting age, the budget-type
    and experience labels and the skill chips. */
module JobDisplay {
  import opened Wrappers
  import opened Text
  import opened JobRecord

  // ---- budget ----------------------------------------------------------

  const Rupee: char := '\U{20B9}'

  /** The currency symbol: the rupee sign for `INR`, the dollar sign for
      every other code and for a missing one. */
  function Symbol(currency: Option<string>): (c: char)
    ensures c == Rupee <==> currency == Some("INR")
    ensures c != Rupee ==> c == '$'
  {
    if currency == Some("INR") then Rupee else '$'
  }

  const HourlyTBD: string := "Hourly rate TBD"
  const BudgetTBD: string := "Budget TBD"

  /** `formatBudget`. `group` stands for `toLocaleString`, the locale's
      thousands grouping, which the model leaves uninterpreted. Only the
      minimum decides whether an amount is shown: a job with only a maximum
      reads as to be decided. */
  function FormatBudget(job: Job, group: int -> string): (r: string)
    ensures !Truthy(job.budgetMin) ==>
              r == (if job.budgetType == "hourly" then HourlyTBD else BudgetTBD)
    ensures Truthy(job.budgetMin) ==> |r| >= 2 && r[0] == Symbol(job.currency)
    ensures job.budgetType == "hourly" && Truthy(job.budgetMin) ==> EndsWith(r, "/hr")
    ensures job.budgetType != "hourly" && Truthy(job.budgetMin) && !Truthy(job.budgetMax) ==>
              r == [Symbol(job.currency)] + group(job.budgetMin.value) + "+"
    ensures job.budgetType != "hourly" && Truthy(job.budgetMin) && Truthy(job.budgetMax) ==>
              r == [Symbol(job.currency)] + group(job.budgetMin.value) + "-"
                   + [Symbol(job.currency)] + group(job.budgetMax.value)
  {
    var sym := [Symbol(job.currency)];
    if job.budgetType == "hourly" then
      if Truthy(job.budgetMin) && Truthy(job.budgetMax) then
        sym + IntToString(job.budgetMin.value) + "-" + IntToString(job.budgetMax.value) + "/hr"
      else if Truthy(job.budgetMin) then
        sym + IntToString(job.budgetMin.value) + "+/hr"
      else HourlyTBD
    else
      if Truthy(job.budgetMin) && Truthy(job.budgetMax) then
        sym + group(job.budgetMin.value) + "-" + sym + group(job.budgetMax.value)
      else if Truthy(job.budgetMin) then
        sym + group(job.budgetMin.value) + "+"
      else BudgetTBD
  }

  /** What an hourly budget text says. */
  datatype HourlyRate = RateRange(lo: int, hi: int) | RateFrom(lo: int) | RateTBD

  /** Reads an hourly budget text back: `Hourly rate TBD`, a symbol and
      `{lo}+/hr`, or a symbol and `{lo}-{hi}/hr`. */
  function DecodeHourly(s: string): Option<HourlyRate> {
    if s == HourlyTBD then Some(RateTBD)
    else if |s| < 4 || !EndsWith(s, "/hr") then None
    else DecodeAmounts(s[1..|s| - 3])
  }

  /** The part between the symbol and `/hr`: `{lo}+` or `{lo}-{hi}`, each
      amount an optional minus sign and digits. The separating dash is the
      first one after the first character, which may be the minimum's sign. */
  function DecodeAmounts(body: string): Option<HourlyRate> {
    if |body| >= 2 && body[|body| - 1] == '+' && IsIntText(body[..|body| - 1]) then
      Some(RateFrom(ParseInt(body[..|body| - 1])))
    else if body == [] then None
    else
      var i := 1 + IndexOf(body[1..], '-');
      if i < |body| && IsIntText(body[..i]) && IsIntText(body[i + 1..]) then
        Some(RateRange(ParseInt(body[..i]), ParseInt(body[i + 1..])))
      else None
  }

  /** The hourly text loses nothing the rule looks at, for every amount
      including a negative one: a truthy minimum and maximum read back as
      the range, a truthy minimum alone as an open rate, and anything else
      as undecided. */
  lemma HourlyRoundTrip(job: Job, group: int -> string)
    requires job.budgetType == "hourly"
    ensures DecodeHourly(FormatBudget(job, group)) ==
      if Truthy(job.budgetMin) && Truthy(job.budgetMax) then
        Some(RateRange(job.budgetMin.value, job.budgetMax.value))
      else if Truthy(job.budgetMin) then Some(RateFrom(job.budgetMin.value))
      else Some(RateTBD)
  {
    var sym := [Symbol(job.currency)];
    if Truthy(job.budgetMin) {
      var lo := job.budgetMin.value;
      if Truthy(job.budgetMax) {
        var hi := job.budgetMax.value;
        assert FormatBudget(job, group) == sym + IntToString(lo) + "-" + IntToString(hi) + "/hr";
        DecodeRange(sym, lo, hi);
      } else {
        assert FormatBudget(job, group) == sym + IntToString(lo) + "+/hr";
        DecodeFrom(sym, lo);
      }
    }
  }

  lemma DecodeRange(sym: string, lo: int, hi: int)
    requires |sym| == 1
    ensures DecodeHourly(sym + IntToString(lo) + "-" + IntToString(hi) + "/hr") == Some(RateRange(lo, hi))
  {
    var l, h := IntToString(lo), IntToString(hi);
    Regroup(sym, l, "-", h);
    DecodeFramed(sym, l + "-" + h);
    ParseIntToString(lo);
    ParseIntToString(hi);
    DecodeRangeBody(l, h);
  }

  /** Two signed amounts joined by a dash split at that dash. */
  lemma DecodeRangeBody(l: string, h: string)
    requires IsIntText(l) && IsIntText(h)
    ensures DecodeAmounts(l + "-" + h) == Some(RateRange(ParseInt(l), ParseInt(h)))
  {
    var body := l + "-" + h;
    assert body[|body| - 1] != '+' by {
      assert body[|body| - 1] == h[|h| - 1];
      assert IsDigit(h[|h| - 1]) by {
        if h[0] == '-' { assert h[|h| - 1] == h[1..][|h| - 2]; }
      }
    }
    var tail := l[1..];
    assert AllDigits(tail) by {
      if l[0] != '-' { assert forall k :: 0 <= k < |tail| ==> tail[k] == l[k + 1]; }
    }
    assert body[1..] == tail + "-" + h;
    DigitsHaveNoDash(tail, h);
    assert body[..|l|] == l;
    assert body[|l| + 1..] == h;
  }

  lemma DecodeFrom(sym: string, lo: int)
    requires |sym| == 1
    ensures DecodeHourly(sym + IntToString(lo) + "+/hr") == Some(RateFrom(lo))
  {
    var l := IntToString(lo);
    var body := l + "+";
    assert "+" + "/hr" == "+/hr";
    Regroup(sym, l, "+", "/hr");
    DecodeFramed(sym, body);
    assert body[..|body| - 1] == l;
    ParseIntToString(lo);
  }

  lemma Regroup(a: string, b: string, c: string, d: string)
    ensures a + b + c + d == a + (b + c + d)
    ensures a + b + (c + d) == a + (b + c) + d
  {
  }

  /** A one-character symbol, a body and `/hr` decode as the body does. */
  lemma DecodeFramed(sym: string, body: string)
    requires |sym| == 1
    ensures DecodeHourly(sym + body + "/hr") == DecodeAmounts(body)
  {
    var s := sym + body + "/hr";
    assert s != HourlyTBD by { assert s[|s| - 1] == 'r'; }
    assert s[|s| - 3..] == "/hr";
    assert s[1..|s| - 3] == body;
  }

  lemma DigitsHaveNoDash(lo: string, hi: string)
    requires AllDigits(lo)
    ensures IndexOf(lo + "-" + hi, '-') == |lo|
  {
    var s := lo + "-" + hi;
    assert forall k :: 0 <= k < |lo| ==> s[k] == lo[k] && IsDigit(lo[k]);
    IndexOfFirst(s, '-', |lo|);
  }

  // ---- posting age -----------------------------------------------------

  const HourMs: int := 1000 * 60 * 60
  const DayMs: int := 24 * HourMs
  const WeekMs: int := 7 * DayMs

  /** The tier `getTimeAgo` places an age in. */
  datatype Age = JustPosted | HoursAgo(h: int) | DaysAgo(d: int) | WeeksAgo(w: int)

  /** `getTimeAgo`'s arithmetic for `diffMs = now - created`: whole hours,
      rounded down, then whole days, then whole weeks. A posting time in
      the future gives a negative hour count and reads as just posted. */
  function AgeOf(diffMs: int): (a: Age)
    ensures a.JustPosted? <==> diffMs < HourMs
  {
    var hours := diffMs / HourMs;   // Math.floor of a division by a positive constant
    if hours < 1 then JustPosted
    else if hours < 24 then HoursAgo(hours)
    else
      var days := hours / 24;
      if days < 7 then DaysAgo(days)
      else WeeksAgo(days / 7)
  }

  function AgeLabel(a: Age): string {
    match a
    case JustPosted => "Just posted"
    case HoursAgo(h) => IntToString(h) + "h ago"
    case DaysAgo(d) => IntToString(d) + "d ago"
    case WeeksAgo(w) => IntToString(w) + "w ago"
  }

  /** `getTimeAgo`, with the clock reading passed in. */
  function TimeAgo(nowMs: int, createdMs: int): (r: string)
    ensures r == "Just posted" <==> nowMs - createdMs < HourMs
  {
    var a := AgeOf(nowMs - createdMs);
    assert a.HoursAgo? ==> a.h >= 1;
    assert a.DaysAgo? ==> a.d >= 1;
    assert a.WeeksAgo? ==> a.w >= 1;
    var r := AgeLabel(a);
    assert !a.JustPosted? ==> r[|r| - 1] == 'o' && r != "Just posted";
    r
  }

  /** The hour tier: `{k}h ago` exactly for ages of k to k+1 hours, 1 <= k < 24. */
  lemma HoursTier(diffMs: int, k: int)
    ensures AgeOf(diffMs) == HoursAgo(k) <==>
            1 <= k < 24 && k * HourMs <= diffMs < (k + 1) * HourMs
  {
  }

  /** The day tier: `{k}d ago` exactly for ages of k to k+1 days, 1 <= k < 7. */
  lemma DaysTier(diffMs: int, k: int)
    ensures AgeOf(diffMs) == DaysAgo(k) <==>
            1 <= k < 7 && k * DayMs <= diffMs < (k + 1) * DayMs
  {
  }

  /** The week tier has no upper bound: `{k}w ago` exactly for ages of k to
      k+1 weeks, k >= 1; the two roundings down compose into one. */
  lemma WeeksTier(diffMs: int, k: int)
    ensures AgeOf(diffMs) == WeeksAgo(k) <==>
            1 <= k && k * WeekMs <= diffMs < (k + 1) * WeekMs
  {
    var hours := diffMs / HourMs;
    var days := hours / 24;
    if 1 <= k && k * WeekMs <= diffMs < (k + 1) * WeekMs {
      assert hours >= 168 * k;
      assert hours < 168 * (k + 1);
      assert 7 * k <= days < 7 * (k + 1);
    }
    if AgeOf(diffMs) == WeeksAgo(k) {
      assert days / 7 == k && days >= 7;
      assert 7 * k <= days < 7 * k + 7;
      assert 168 * k <= hours < 168 * k + 168;
    }
  }

  /** Reads a posting-age label back. */
  function ParseAge(s: string): Option<Age> {
    if s == "Just posted" then Some(JustPosted)
    else if |s| < 6 || s[|s| - 4..] != " ago" || !AllDigits(s[..|s| - 5]) then None
    else
      var n := ParseNat(s[..|s| - 5]);
      var unit := s[|s| - 5];
      if unit == 'h' then Some(HoursAgo(n))
      else if unit == 'd' then Some(DaysAgo(n))
      else if unit == 'w' then Some(WeeksAgo(n))
      else None
  }

  /** Every age the formatter produces is read back by `ParseAge`, so two
      different tiers or counts never share a label. */
  lemma AgeLabelRoundTrip(diffMs: int)
    ensures ParseAge(AgeLabel(AgeOf(diffMs))) == Some(AgeOf(diffMs))
  {
    var a := AgeOf(diffMs);
    if !a.JustPosted? {
      var n: nat := match a
        case HoursAgo(h) => h
        case DaysAgo(d) => d
        case WeeksAgo(w) => w;
      var s := AgeLabel(a);
      assert s[..|s| - 5] == NatToString(n);
      ParseNatToString(n);
      assert s != "Just posted" by { assert s[|s| - 1] == 'o'; }
    }
  }

  // ---- labels ----------------------------------------------------------

  /** The budget-type caption: `fixed` and `hourly` have their own, every
      other value (`milestone` included) reads "Milestone". */
  function BudgetTypeLabel(budgetType: string): (r: string)
    ensures budgetType == "fixed" <==> r == "Fixed Price"
    ensures budgetType == "hourly" <==> r == "Hourly"
    ensures budgetType != "fixed" && budgetType != "hourly" <==> r == "Milestone"
  {
    if budgetType == "fixed" then "Fixed Price"
    else if budgetType == "hourly" then "Hourly"
    else "Milestone"
  }

  /** The experience caption: the level with its first character upper-cased
      and the rest as stored. */
  function ExperienceLabel(level: string): (r: string)
    ensures |r| == |level|
    ensures level != [] ==> r[0] == ToUpper(level[0]) && r[1..] == level[1..]
  {
    Capitalize(level)
  }

  datatype BadgeVariant = Secondary | Default | Destructive

  /** The experience badge colour: entry and intermediate have their own,
      every other value is shown as expert would be. */
  function ExperienceVariant(level: string): (v: BadgeVariant)
    ensures v == Secondary <==> level == "entry"
    ensures v == Default <==> level == "intermediate"
    ensures v == Destructive <==> level != "entry" && level != "intermediate"
  {
    if level == "entry" then Secondary
    else if level == "intermediate" then Default
    else Destructive
  }

  /** The skill chips of a job card. */
  datatype Chips = Chips(shown: seq<string>, more: Option<nat>)

  /** At most the first five skills, and a "+n more" chip counting the rest
      exactly when there are more than five. A missing skill list shows
      nothing. */
  function JobSkillChips(skills: Option<seq<string>>): (c: Chips)
    ensures var all := skills.GetOr([]);
      && |c.shown| == (if |all| < 5 then |all| else 5)
      && c.shown == all[..|c.shown|]
      && (c.more.Some? <==> |all| > 5)
      && |c.shown| + c.more.GetOr(0) == |all|
  {
    var all := skills.GetOr([]);
    if |all| > 5 then Chips(all[..5], Some(|all| - 5))
    else Chips(all, None)
  }

  /** An INR hourly job from 500 to 1500 reads "₹500-1500/hr". */
  lemma HourlyFormatExample(j: Job, group: int -> string)
    ensures FormatBudget(j.(budgetType := "hourly", budgetMin := Some(500), budgetMax := Some(1500),
                            currency := Some("INR")), group) == [Rupee] + "500-1500/hr"
  {
    ExampleDigits();
    var k := j.(budgetType := "hourly", budgetMin := Some(500), budgetMax := Some(1500), currency := Some("INR"));
    assert Symbol(k.currency) == Rupee;
  }

  /** The decimal texts the budget examples use. */
  lemma ExampleDigits()
    ensures IntToString(500) == "500" && IntToString(1500) == "1500"
  {
    assert NatToString(500) == "500" by {
      assert NatToString(5) == "5";
      assert NatToString(50) == "50";
    }
    assert NatToString(1500) == "1500" by {
      assert NatToString(1) == "1";
      assert NatToString(15) == "15";
      assert NatToString(150) == "150";
    }
  }

  /** A USD fixed job from 5000 with no maximum reads "$", the grouped 5000
      and "+". */
  lemma FixedFormatExample(j: Job, group: int -> string)
    ensures FormatBudget(j.(budgetType := "fixed", budgetMin := Some(5000), budgetMax := None,
                            currency := Some("USD")), group) == "$" + group(5000) + "+"
  {
  }

  /** Thirty minutes is just posted, ninety minutes is one hour, ten days
      is one week. */
  lemma TimeAgoExamples(now: int)
    ensures TimeAgo(now, now - 30 * 60 * 1000) == "Just posted"
    ensures TimeAgo(now, now - 90 * 60 * 1000) == "1h ago"
    ensures TimeAgo(now, now - 10 * DayMs) == "1w ago"
  {
    assert now - (now - 90 * 60 * 1000) == 5400000;
    assert AgeOf(5400000) == HoursAgo(1);
    assert now - (now - 10 * DayMs) == 864000000;
    assert AgeOf(864000000) == WeeksAgo(1);
    assert IntToString(1) == "1";
  }
}

=== FILE: job.dfy ===
/** The `jobs` row as the pages read it, with the nullability of the
    generated row type, and JavaScript truthiness for the numeric columns. */
module JobRecord {
  import opened Wrappers

  /** A row of the `jobs` table. Monetary amounts are JavaScript numbers,
      modelled as integers. `createdAtMs` is `created_at`
      already converted to milliseconds since the epoch. */
  datatype Job = Job(
    id: string,
    title: string,
    description: string,
    categoryId: string,
    budgetType: string,
    budgetMin: Option<int>,
    budgetMax: Option<int>,
    currency: Option<string>,
    experienceLevel: Option<string>,
    skillsRequired: Option<seq<string>>,
    status: Option<string>,
    isRemote: Option<bool>,
    locationPreference: Option<string>,
    applicationsCount: Option<int>,
    createdAtMs: int
  )

  /** JavaScript truthiness of a nullable number: `null` and `0` are falsy. */
  predicate Truthy(n: Option<int>) {
    n.Some? && n.value != 0
  }

  /** `a || b` on two nullable numbers: `a` when truthy, otherwise `b`. */
  function Or(a: Option<int>, b: Option<int>): (r: Option<int>)
    ensures Truthy(a) ==> r == a
    ensures !Truthy(a) ==> r == b
  {
    if Truthy(a) then a else b
  }

  /** The single comparable amount of a job, `budget_max || budget_min`:
      it is truthy exactly when one of the two bounds is, and then it is the
      maximum when that is truthy and the minimum otherwise. */
  function EffectiveBudget(job: Job): (b: Option<int>)
    ensures Truthy(b) <==> Truthy(job.budgetMax) || Truthy(job.budgetMin)
    ensures Truthy(b) ==> b == (if Truthy(job.budgetMax) then job.budgetMax else job.budgetMin)
  {
    Or(job.budgetMax, job.budgetMin)
  }
}

=== FILE: listing.dfy ===
/** What the job listing shows: the list and the loading flag, and how the
    completion of one `loadJobs` request changes them. Requests are not
    numbered: whichever response arrives last decides the list. */
module Listing {
  import opened Wrappers
  import opened JobRecord
  import opened BudgetBucket
  import opened Sequences

  datatype View = View(jobs: seq<Job>, isLoading: bool)

  /** The outcome of running the query: rows (the client may hand back
      `null` data without an error) or an error. */
  datatype Response = Rows(data: Option<seq<Job>>) | QueryError(message: string)

  /** The page before its first request completes. */
  const InitialView: View := View([], true)

  /** The start of `loadJobs`: the loading flag goes up, the list stays. */
  function StartLoad(v: View): (r: View)
    ensures r.isLoading && r.jobs == v.jobs
  {
    v.(isLoading := true)
  }

  /** The end of `loadJobs` for the budget range current when the request
      was issued. On error the previous list stays; on success it is
      replaced by the budget-filtered rows; loading ends either way. */
  function Complete(v: View, budgetRange: string, resp: Response): (r: View)
    ensures !r.isLoading
    ensures resp.QueryError? ==> r.jobs == v.jobs
    ensures resp.Rows? ==> r.jobs == ApplyBucket(budgetRange, resp.data.GetOr([]))
  {
    match resp
    case QueryError(_) => v.(isLoading := false)
    case Rows(data) => View(ApplyBucket(budgetRange, data.GetOr([])), false)
  }

  /** The page opens loading an empty list. If the first request fails,
      the list stays empty and loading ends; if it succeeds, the list is the
      filtered rows. */
  lemma FirstLoad(budgetRange: string, resp: Response)
    ensures InitialView.jobs == [] && InitialView.isLoading
    ensures var r := Complete(StartLoad(InitialView), budgetRange, resp);
      && !r.isLoading
      && (resp.QueryError? ==> r.jobs == [])
      && (resp.Rows? ==> r.jobs == ApplyBucket(budgetRange, resp.data.GetOr([])))
  {
  }

  /** After a successful response the view no longer depends on anything
      shown before it: every displayed job is one of the rows returned. */
  lemma SuccessShowsOnlyReturnedRows(v: View, budgetRange: string, rows: seq<Job>)
    ensures var r := Complete(v, budgetRange, Rows(Some(rows)));
      && Subsequence(r.jobs, rows)
      && forall j :: j in r.jobs ==> j in rows
  {
    ApplyBucketIsSubsequence(budgetRange, rows);
  }

  /** With no budget range the listing shows exactly the rows returned. */
  lemma AllRangeShowsAllRows(v: View, rows: seq<Job>)
    ensures Complete(v, AllBuckets, Rows(Some(rows))).jobs == rows
  {
  }

  /** Two completions in a row: the later successful one alone decides the
      list, whatever was issued or arrived before it. This is arrival order,
      not request order: an older request that resolves last wins. */
  lemma LastArrivalWins(v: View, b1: string, r1: Response, b2: string, rows: Option<seq<Job>>)
    ensures Complete(Complete(v, b1, r1), b2, Rows(rows)) == Complete(v, b2, Rows(rows))
  {
  }

  /** An error response after a success keeps the successful list. */
  lemma ErrorKeepsPreviousList(v: View, b1: string, rows: Option<seq<Job>>, b2: string, msg: string)
    ensures Complete(Complete(v, b1, Rows(rows)), b2, QueryError(msg)).jobs
            == ApplyBucket(b1, rows.GetOr([]))
  {
  }
}

=== FILE: postjob.dfy ===
/** The job-posting form: its initial state, the field and list edits, and
    the row the submit handler sends for insertion. The insertion itself,
    the session and role check and the navigation are not modelled. */
module PostJob {
  import opened Wrappers
  import opened Text
  import opened Sequences

  /** The form's fields. Budgets are kept as the text typed in. */
  datatype FormData = FormData(
    title: string,
    description: string,
    categoryId: string,
    budgetType: string,
    budgetMin: string,
    budgetMax: string,
    duration: string,
    experienceLevel: string,
    skillsRequired: seq<string>,
    locationPreference: string,
    isRemote: bool,
    screeningQuestions: seq<string>
  )

  /** The form together with the two pending inputs of the add buttons. */
  datatype Editor = Editor(form: FormData, newSkill: string, newQuestion: string)

  /** The form when the page opens. */
  const InitialForm: FormData :=
    FormData("", "", "", "fixed", "", "", "", "intermediate", [], "", true, [])

  const InitialEditor: Editor := Editor(InitialForm, "", "")

  /** The initial form: a fixed-price, intermediate-level, remote job with
      every text field and both lists empty. */
  lemma InitialFormDefaults()
    ensures var f := InitialEditor.form;
      && f.budgetType == "fixed" && f.experienceLevel == "intermediate" && f.isRemote
      && f.title == "" && f.description == "" && f.categoryId == ""
      && f.budgetMin == "" && f.budgetMax == "" && f.duration == ""
      && f.locationPreference == ""
      && f.skillsRequired == [] && f.screeningQuestions == []
      && InitialEditor.newSkill == "" && InitialEditor.newQuestion == ""
  {
  }

  // ---- single-field update ----------------------------------------------

  /** The text fields the inputs write through `handleInputChange`. */
  datatype TextField =
    | Title | Description | CategoryId | BudgetType | BudgetMin | BudgetMax
    | Duration | ExperienceLevel | LocationPreference

  /** A call of `handleInputChange`: a text field with its new text, or the
      remote checkbox with its new state. */
  datatype Change = SetText(field: TextField, text: string) | SetRemote(flag: bool)

  function Get(f: FormData, field: TextField): string {
    match field
    case Title => f.title
    case Description => f.description
    case CategoryId => f.categoryId
    case BudgetType => f.budgetType
    case BudgetMin => f.budgetMin
    case BudgetMax => f.budgetMax
    case Duration => f.duration
    case ExperienceLevel => f.experienceLevel
    case LocationPreference => f.locationPreference
  }

  /** `handleInputChange(field, value)`: the named field takes the value and
      every other field, the two lists included, keeps its value. */
  function HandleInputChange(f: FormData, c: Change): (r: FormData)
    ensures c.SetText? ==> Get(r, c.field) == c.text && r.isRemote == f.isRemote
    ensures c.SetText? ==> forall g :: g != c.field ==> Get(r, g) == Get(f, g)
    ensures c.SetRemote? ==> r.isRemote == c.flag && forall g :: Get(r, g) == Get(f, g)
    ensures r.skillsRequired == f.skillsRequired
    ensures r.screeningQuestions == f.screeningQuestions
  {
    match c
    case SetRemote(b) => f.(isRemote := b)
    case SetText(field, v) =>
      match field
      case Title => f.(title := v)
      case Description => f.(description := v)
      case CategoryId => f.(categoryId := v)
      case BudgetType => f.(budgetType := v)
      case BudgetMin => f.(budgetMin := v)
      case BudgetMax => f.(budgetMax := v)
      case Duration => f.(duration := v)
      case ExperienceLevel => f.(experienceLevel := v)
      case LocationPreference => f.(locationPreference := v)
  }

  /** Writing back what a field holds changes nothing, and of two writes to
      one field the second alone counts. */
  lemma InputChangeLaws(f: FormData, field: TextField, v: string, w: string)
    ensures HandleInputChange(f, SetText(field, Get(f, field))) == f
    ensures HandleInputChange(HandleInputChange(f, SetText(field, v)), SetText(field, w))
            == HandleInputChange(f, SetText(field, w))
  {
  }

  // ---- skills ----------------------------------------------------------

  /** `addSkill`: the trimmed pending skill is appended, and the input
      cleared, exactly when it is non-empty and not listed yet; otherwise
      nothing changes. */
  function AddSkill(e: Editor): (r: Editor)
    ensures var t := Trim(e.newSkill);
      && (t != "" && t !in e.form.skillsRequired ==>
            r == Editor(e.form.(skillsRequired := e.form.skillsRequired + [t]), "", e.newQuestion))
      && (t == "" || t in e.form.skillsRequired ==> r == e)
  {
    var t := Trim(e.newSkill);
    if t != "" && t !in e.form.skillsRequired then
      Editor(e.form.(skillsRequired := e.form.skillsRequired + [t]), "", e.newQuestion)
    else e
  }

  /** Adding a skill never creates a duplicate. */
  lemma AddSkillKeepsNoDuplicates(e: Editor)
    requires NoDuplicates(e.form.skillsRequired)
    ensures NoDuplicates(AddSkill(e).form.skillsRequired)
  {
  }

  /** Every element except `x`, in order. */
  function RemoveAll(s: seq<string>, x: string): (r: seq<string>)
    ensures x !in r
    ensures forall y :: y != x ==> (y in r <==> y in s)
    ensures |r| <= |s|
  {
    if s == [] then []
    else if s[0] == x then RemoveAll(s[1..], x)
    else [s[0]] + RemoveAll(s[1..], x)
  }

  /** `removeSkill(skill)`: every copy of the skill goes, everything else
      stays. */
  function RemoveSkill(f: FormData, skill: string): (r: FormData)
    ensures skill !in r.skillsRequired
    ensures forall y :: y != skill ==> (y in r.skillsRequired <==> y in f.skillsRequired)
    ensures r.skillsRequired == RemoveAll(f.skillsRequired, skill)
    ensures Subsequence(r.skillsRequired, f.skillsRequired)
    ensures r == f.(skillsRequired := r.skillsRequired)
  {
    RemoveAllIsSubsequence(f.skillsRequired, skill);
    f.(skillsRequired := RemoveAll(f.skillsRequired, skill))
  }

  /** Removal keeps the order of the remaining skills. */
  lemma {:induction false} RemoveAllIsSubsequence(s: seq<string>, x: string)
    ensures Subsequence(RemoveAll(s, x), s)
  {
    if s != [] {
      RemoveAllIsSubsequence(s[1..], x);
      var rest := RemoveAll(s[1..], x);
      if s[0] != x {
        assert ([s[0]] + rest)[1..] == rest;
      } else if rest != [] {
        assert rest[0] in rest;
      }
    }
  }

  /** Removing a value that is not there changes nothing. */
  lemma {:induction false} RemoveAllAbsent(s: seq<string>, x: string)
    requires x !in s
    ensures RemoveAll(s, x) == s
  {
    if s != [] {
      RemoveAllAbsent(s[1..], x);
      assert [s[0]] + s[1..] == s;
    }
  }

  lemma {:induction false} RemoveAllAppend(s: seq<string>, t: seq<string>, x: string)
    ensures RemoveAll(s + t, x) == RemoveAll(s, x) + RemoveAll(t, x)
  {
    if s == [] {
      assert s + t == t;
    } else {
      assert (s + t)[1..] == s[1..] + t;
      RemoveAllAppend(s[1..], t, x);
    }
  }

  /** Removing the skill just added gives the list back. */
  lemma AddThenRemoveSkill(e: Editor)
    requires AddSkill(e).form.skillsRequired != e.form.skillsRequired
    ensures RemoveSkill(AddSkill(e).form, Trim(e.newSkill)).skillsRequired == e.form.skillsRequired
  {
    var s, t := e.form.skillsRequired, Trim(e.newSkill);
    RemoveAllAppend(s, [t], t);
    RemoveAllAbsent(s, t);
    assert [t][1..] == [];
  }

  /** Removal keeps a duplicate-free list duplicate-free. */
  lemma {:induction false} RemoveAllKeepsNoDuplicates(s: seq<string>, x: string)
    requires NoDuplicates(s)
    ensures NoDuplicates(RemoveAll(s, x))
  {
    if s != [] {
      assert NoDuplicates(s[1..]) by {
        forall i, j | 0 <= i < j < |s[1..]| ensures s[1..][i] != s[1..][j] {
          assert s[1..][i] == s[i + 1] && s[1..][j] == s[j + 1];
        }
      }
      RemoveAllKeepsNoDuplicates(s[1..], x);
      var rest := RemoveAll(s[1..], x);
      if s[0] != x {
        assert s[0] !in s[1..];
        assert s[0] !in rest;
        var r := [s[0]] + rest;
        forall i, j | 0 <= i < j < |r| ensures r[i] != r[j] {
          if i == 0 {
            assert r[j] in rest;
          } else {
            assert r[i] == rest[i - 1] && r[j] == rest[j - 1];
          }
        }
      }
    }
  }

  // ---- screening questions ---------------------------------------------

  /** `addQuestion`: the trimmed pending question is appended, and the input
      cleared, exactly when it is non-empty; repeats are allowed. */
  function AddQuestion(e: Editor): (r: Editor)
    ensures var t := Trim(e.newQuestion);
      && (t != "" ==>
            r == Editor(e.form.(screeningQuestions := e.form.screeningQuestions + [t]), e.newSkill, ""))
      && (t == "" ==> r == e)
  {
    var t := Trim(e.newQuestion);
    if t != "" then
      Editor(e.form.(screeningQuestions := e.form.screeningQuestions + [t]), e.newSkill, "")
    else e
  }

  /** `questions.filter((_, i) => i !== index)`. */
  function RemoveAt(qs: seq<string>, index: int): (r: seq<string>)
    ensures 0 <= index < |qs| ==> |r| == |qs| - 1
    ensures 0 <= index < |qs| ==> forall k :: 0 <= k < |r| ==>
              r[k] == (if k < index then qs[k] else qs[k + 1])
    ensures !(0 <= index < |qs|) ==> r == qs
  {
    if 0 <= index < |qs| then qs[..index] + qs[index + 1..] else qs
  }

  /** `removeQuestion(index)`: only the question at that position goes;
      an index outside the list removes nothing. */
  function RemoveQuestion(f: FormData, index: int): (r: FormData)
    ensures 0 <= index < |f.screeningQuestions| ==>
              |r.screeningQuestions| == |f.screeningQuestions| - 1
              && r.screeningQuestions == f.screeningQuestions[..index] + f.screeningQuestions[index + 1..]
    ensures !(0 <= index < |f.screeningQuestions|) ==> r == f
    ensures r == f.(screeningQuestions := r.screeningQuestions)
  {
    f.(screeningQuestions := RemoveAt(f.screeningQuestions, index))
  }

  /** Removing the question just added, by its position, gives the list
      back. */
  lemma AddThenRemoveQuestion(e: Editor)
    requires Trim(e.newQuestion) != ""
    ensures RemoveQuestion(AddQuestion(e).form, |e.form.screeningQuestions|).screeningQuestions
            == e.form.screeningQuestions
  {
    var qs := e.form.screeningQuestions;
    assert (qs + [Trim(e.newQuestion)])[..|qs|] == qs;
  }

  // ---- submit ----------------------------------------------------------

  /** The signed-in poster's profile. */
  datatype User = User(id: string)

  /** What `parseFloat` returns: a number or NaN. It is not `null` for a
      non-empty text that does not parse. */
  datatype NumberValue = Num(value: int) | NaN

  /** The row handed to the insert call. */
  datatype JobInsert = JobInsert(
    posterId: string,
    title: string,
    description: string,
    categoryId: string,
    budgetType: string,
    budgetMin: Option<NumberValue>,
    budgetMax: Option<NumberValue>,
    duration: string,
    experienceLevel: string,
    skillsRequired: seq<string>,
    locationPreference: string,
    isRemote: bool,
    screeningQuestions: seq<string>,
    status: string
  )

  /** An amount field of the row: `null` for empty text, the parse of the
      text otherwise. `parse` stands for `parseFloat`. */
  function BudgetValue(text: string, parse: string -> NumberValue): (v: Option<NumberValue>)
    ensures v.None? <==> text == ""
    ensures v.Some? ==> v.value == parse(text)
  {
    if text != "" then Some(parse(text)) else None
  }

  /** `handleSubmit`: without a signed-in poster nothing is sent; otherwise
      the row copies the form, belongs to the poster, is always `open`, and
      has a `null` amount exactly where the amount text is empty and the
      parsed text everywhere else. */
  function Submit(user: Option<User>, f: FormData, parse: string -> NumberValue): (r: Option<JobInsert>)
    ensures r.None? <==> user.None?
    ensures r.Some? ==> r.value.status == "open" && r.value.posterId == user.value.id
    ensures r.Some? ==> (r.value.budgetMin.None? <==> f.budgetMin == "")
    ensures r.Some? ==> (r.value.budgetMax.None? <==> f.budgetMax == "")
    ensures r.Some? && f.budgetMin != "" ==> r.value.budgetMin == Some(parse(f.budgetMin))
    ensures r.Some? && f.budgetMax != "" ==> r.value.budgetMax == Some(parse(f.budgetMax))
    ensures r.Some? ==> CopiesForm(r.value, f)
  {
    if user.None? then None
    else Some(JobInsert(
      user.value.id, f.title, f.description, f.categoryId, f.budgetType,
      BudgetValue(f.budgetMin, parse), BudgetValue(f.budgetMax, parse),
      f.duration, f.experienceLevel, f.skillsRequired, f.locationPreference,
      f.isRemote, f.screeningQuestions, "open"))
  }

  /** Submitting the untouched form sends an open, fixed-price,
      intermediate-level, remote job with no amounts, skills or questions. */
  lemma SubmitInitialForm(u: User, parse: string -> NumberValue)
    ensures var row := Submit(Some(u), InitialForm, parse).value;
      && row.status == "open" && row.budgetType == "fixed"
      && row.experienceLevel == "intermediate" && row.isRemote
      && row.budgetMin.None? && row.budgetMax.None?
      && row.skillsRequired == [] && row.screeningQuestions == []
  {
  }

  /** An edit of one amount field reaches the row as that amount, parsed or
      `null`, and leaves the other amount as the form had it. */
  lemma SubmitAfterAmountEdit(u: User, f: FormData, v: string, parse: string -> NumberValue)
    ensures var row := Submit(Some(u), HandleInputChange(f, SetText(BudgetMin, v)), parse).value;
      && (row.budgetMin.None? <==> v == "")
      && (v != "" ==> row.budgetMin == Some(parse(v)))
      && (row.budgetMax.None? <==> f.budgetMax == "")
      && (f.budgetMax != "" ==> row.budgetMax == Some(parse(f.budgetMax)))
    ensures var row := Submit(Some(u), HandleInputChange(f, SetText(BudgetMax, v)), parse).value;
      && (row.budgetMax.None? <==> v == "")
      && (v != "" ==> row.budgetMax == Some(parse(v)))
      && (row.budgetMin.None? <==> f.budgetMin == "")
      && (f.budgetMin != "" ==> row.budgetMin == Some(parse(f.budgetMin)))
  {
    var g := HandleInputChange(f, SetText(BudgetMin, v));
    assert Get(g, BudgetMax) == Get(f, BudgetMax);
    var h := HandleInputChange(f, SetText(BudgetMax, v));
    assert Get(h, BudgetMin) == Get(f, BudgetMin);
  }

  /** Every field of the row other than the owner, the amounts and the
      status is the form's field of the same name. */
  predicate CopiesForm(row: JobInsert, f: FormData) {
    && row.title == f.title && row.description == f.description
    && row.categoryId == f.categoryId && row.budgetType == f.budgetType
    && row.duration == f.duration && row.experienceLevel == f.experienceLevel
    && row.skillsRequired == f.skillsRequired
    && row.locationPreference == f.locationPreference
    && row.isRemote == f.isRemote && row.screeningQuestions == f.screeningQuestions
  }
}

=== FILE: query.dfy ===
/** The filter criteria of the job listing and the database request they
    produce, as a value: a list of predicate descriptors and an ordering.
    What the database does with the request is not modelled. */
module JobQuery {
  import opened Wrappers

  /** The four selections of the listing page. */
  datatype Criteria = Criteria(
    searchQuery: string,
    category: string,
    budgetRange: string,
    experienceLevel: string
  )

  /** A filter method call on the query builder. */
  datatype Predicate =
    | Eq(column: string, value: string)   // `.eq(column, value)`
    | AnyOf(filter: string)               // `.or(filter)`

  datatype Ordering = Ordering(column: string, ascending: bool)

  datatype Query = Query(table: string, predicates: seq<Predicate>, order: Ordering)

  /** The selections when the page opens, and after "Clear Filters". */
  const InitialCriteria: Criteria := Criteria("", "all", "all", "all")

  /** "Clear Filters": every selection back to its initial value. */
  function ClearFilters(c: Criteria): (r: Criteria)
    ensures r.searchQuery == "" && r.category == "all"
    ensures r.budgetRange == "all" && r.experienceLevel == "all"
  {
    InitialCriteria
  }

  /** A `category` URL parameter, when present and non-empty, becomes the
      selected category; nothing else changes. */
  function ApplyCategoryParam(c: Criteria, param: Option<string>): (r: Criteria)
    ensures param.Some? && param.value != "" ==> r.category == param.value
    ensures param.None? || param.value == "" ==> r.category == c.category
    ensures r.searchQuery == c.searchQuery && r.budgetRange == c.budgetRange
    ensures r.experienceLevel == c.experienceLevel
  {
    if param.Some? && param.value != "" then c.(category := param.value) else c
  }

  const TitlePrefix: string := "title.ilike.%"
  const DescriptionInfix: string := "%,description.ilike.%"
  const Wildcard: string := "%"

  /** The `.or` filter for a search text: title or description contains the
      text. The text is spliced in without escaping. */
  function TextFilter(q: string): (f: string)
    ensures |f| == 2 * |q| + 35
    ensures f[..13] == TitlePrefix && f[13..13 + |q|] == q
    ensures f[13 + |q|..34 + |q|] == DescriptionInfix && f[34 + |q|..34 + 2 * |q|] == q
    ensures f[34 + 2 * |q|..] == Wildcard
  {
    TitlePrefix + q + DescriptionInfix + q + Wildcard
  }

  /** Recovers the search text from an `.or` filter by checking each piece
      of the shape: the title clause, the text, the description clause, the
      same text again and the closing wildcard. Anything else is rejected. */
  function ParseTextFilter(f: string): (r: Option<string>)
    ensures r.Some? ==> TextFilter(r.value) == f
  {
    if |f| < 35 || (|f| - 35) % 2 != 0 then None
    else
      var n := (|f| - 35) / 2;
      var q := f[13..13 + n];
      if && f[..13] == TitlePrefix
         && f[13 + n..34 + n] == DescriptionInfix
         && f[34 + n..34 + 2 * n] == q
         && f[34 + 2 * n..] == Wildcard
      then
        FiveSlices(f, 13, 13 + n, 34 + n, 34 + 2 * n);
        assert f == TitlePrefix + q + DescriptionInfix + q + Wildcard;
        Some(q)
      else None
  }

  /** A string is the concatenation of its pieces between four cut points. */
  lemma FiveSlices(f: string, a: nat, b: nat, c: nat, d: nat)
    requires a <= b <= c <= d <= |f|
    ensures f == f[..a] + f[a..b] + f[b..c] + f[c..d] + f[d..]
  {
  }

  /** The search text can be read back from its filter, so two different
      texts never give the same filter. */
  lemma TextFilterRoundTrip(q: string)
    ensures ParseTextFilter(TextFilter(q)) == Some(q)
  {
    var f := TextFilter(q);
    assert (|f| - 35) / 2 == |q|;
  }

  /** The query `loadJobs` builds: open jobs, newest first, with an equality
      per selected category or level and a text filter per non-empty
      search. The budget range is not part of it. */
  function BuildQuery(c: Criteria): (q: Query)
    ensures q.table == "jobs"
    ensures q.order == Ordering("created_at", false)
    ensures |q.predicates| >= 1 && q.predicates[0] == Eq("status", "open")
  {
    var base := [Eq("status", "open")];
    var withCategory := if c.category != "all" then base + [Eq("category_id", c.category)] else base;
    var withLevel := if c.experienceLevel != "all" then withCategory + [Eq("experience_level", c.experienceLevel)] else withCategory;
    var withText := if c.searchQuery != "" then withLevel + [AnyOf(TextFilter(c.searchQuery))] else withLevel;
    Query("jobs", withText, Ordering("created_at", false))
  }

  /** The query contains an equality on `column`. */
  predicate HasEq(q: Query, column: string) {
    exists k :: 0 <= k < |q.predicates| && q.predicates[k].Eq? && q.predicates[k].column == column
  }

  /** The query contains an `.or` filter. */
  predicate HasAnyOf(q: Query) {
    exists k :: 0 <= k < |q.predicates| && q.predicates[k].AnyOf?
  }

  /** Which predicates are present depends only on the selections, and each
      present predicate carries the selected value. */
  lemma BuildQueryPredicates(c: Criteria)
    ensures var q := BuildQuery(c);
      && (HasEq(q, "category_id") <==> c.category != "all")
      && (HasEq(q, "experience_level") <==> c.experienceLevel != "all")
      && (HasAnyOf(q) <==> c.searchQuery != "")
      && (c.category != "all" ==> Eq("category_id", c.category) in q.predicates)
      && (c.experienceLevel != "all" ==> Eq("experience_level", c.experienceLevel) in q.predicates)
      && (c.searchQuery != "" ==> AnyOf(TextFilter(c.searchQuery)) in q.predicates)
      && (forall p :: p in q.predicates ==>
            p == Eq("status", "open")
            || p == Eq("category_id", c.category)
            || p == Eq("experience_level", c.experienceLevel)
            || p == AnyOf(TextFilter(c.searchQuery)))
  {
    var q := BuildQuery(c);
    var n := |q.predicates|;
    if c.searchQuery != "" {
      assert q.predicates[n - 1] == AnyOf(TextFilter(c.searchQuery));
    }
    if c.category != "all" {
      assert q.predicates[1] == Eq("category_id", c.category);
    }
    if c.experienceLevel != "all" {
      var k := if c.category != "all" then 2 else 1;
      assert q.predicates[k] == Eq("experience_level", c.experienceLevel);
    }
  }

  /** Changing only the budget range never changes the database request. */
  lemma BudgetRangeNotInQuery(c: Criteria, b: string)
    ensures BuildQuery(c.(budgetRange := b)) == BuildQuery(c)
  {
  }

  /** After "Clear Filters" the request asks for every open job. */
  lemma ClearedQueryIsOpenOnly(c: Criteria)
    ensures BuildQuery(ClearFilters(c)).predicates == [Eq("status", "open")]
  {
  }
}

=== FILE: sequences.dfy ===
/** Relations between sequences used by more than one page model. */
module Sequences {

  /** `xs` is `ys` with some elements removed, the rest in their order. */
  predicate Subsequence<T(==)>(xs: seq<T>, ys: seq<T>)
    decreases |ys|
  {
    if xs == [] then true
    else if ys == [] then false
    else if xs[0] == ys[0] then Subsequence(xs[1..], ys[1..])
    else Subsequence(xs, ys[1..])
  }

  lemma {:induction false} SubsequenceReflexive<T>(xs: seq<T>)
    ensures Subsequence(xs, xs)
  {
    if xs != [] {
      SubsequenceReflexive(xs[1..]);
    }
  }

  /** No value occurs twice. */
  predicate NoDuplicates<T(==)>(s: seq<T>) {
    forall i, j :: 0 <= i < j < |s| ==> s[i] != s[j]
  }
}

=== FILE: text.dfy ===
/** String helpers with the behaviour of the JavaScript built-ins the pages
    call: `trim`, `includes`, `replace` with a string pattern, number-to-string
    conversion for integers, and ASCII upper-casing of one character. */
module Text {

  /** The characters `String.prototype.trim` removes: the ECMAScript
      WhiteSpace and LineTerminator code points. */
  predicate IsJsSpace(c: char) {
    || c == '\t' || c == '\n' || c == '\U{000B}' || c == '\U{000C}' || c == '\r'
    || c == ' ' || c == '\U{00A0}' || c == '\U{1680}'
    || ('\U{2000}' <= c <= '\U{200A}')
    || c == '\U{2028}' || c == '\U{2029}' || c == '\U{202F}' || c == '\U{205F}'
    || c == '\U{3000}' || c == '\U{FEFF}'
  }

  predicate AllSpace(s: string) {
    forall i :: 0 <= i < |s| ==> IsJsSpace(s[i])
  }

  lemma AllSpaceCons(c: char, s: string)
    requires IsJsSpace(c) && AllSpace(s)
    ensures AllSpace([c] + s)
  {
    forall k | 0 <= k < |[c] + s| ensures IsJsSpace(([c] + s)[k]) {
      if k > 0 { assert ([c] + s)[k] == s[k - 1]; }
    }
  }

  /** Drops leading whitespace. */
  function TrimStart(s: string): (r: string)
    ensures |r| <= |s| && r == s[|s| - |r|..]
    ensures AllSpace(s[..|s| - |r|])
    ensures r == [] || !IsJsSpace(r[0])
  {
    if s != [] && IsJsSpace(s[0]) then
      var t := TrimStart(s[1..]);
      LeadingStep(s, t);
      t
    else s
  }

  /** If `t` is a suffix of `s[1..]` preceded there only by whitespace, and
      `s[0]` is whitespace, then `t` is a suffix of `s` preceded only by
      whitespace. */
  lemma LeadingStep(s: string, t: string)
    requires s != [] && IsJsSpace(s[0])
    requires |t| <= |s| - 1 && t == s[1..][|s| - 1 - |t|..]
    requires AllSpace(s[1..][..|s| - 1 - |t|])
    ensures t == s[|s| - |t|..] && AllSpace(s[..|s| - |t|])
  {
    var lead := s[1..][..|s| - 1 - |t|];
    assert s[..|s| - |t|] == [s[0]] + lead;
    AllSpaceCons(s[0], lead);
  }

  /** Drops trailing whitespace. */
  function TrimEnd(s: string): (r: string)
    ensures |r| <= |s| && r == s[..|r|]
    ensures AllSpace(s[|r|..])
    ensures r == [] || !IsJsSpace(r[|r| - 1])
  {
    if s != [] && IsJsSpace(s[|s| - 1]) then
      var t := TrimEnd(s[..|s| - 1]);
      assert AllSpace(s[|t|..]) by {
        forall k | |t| <= k < |s| ensures IsJsSpace(s[k]) {
          if k < |s| - 1 { assert s[k] == s[..|s| - 1][|t|..][k - |t|]; }
        }
      }
      t
    else s
  }

  /** `r` is `s[i..j]` with only whitespace before `i` and after `j`. */
  predicate TrimmedAt(r: string, s: string, i: int, j: int) {
    0 <= i <= j <= |s| && r == s[i..j] && AllSpace(s[..i]) && AllSpace(s[j..])
  }

  /** `String.prototype.trim`: the input is whitespace, then the result,
      then whitespace, and the result neither starts nor ends with
      whitespace. */
  function Trim(s: string): (r: string)
    ensures exists i, j :: TrimmedAt(r, s, i, j)
    ensures r == [] || (!IsJsSpace(r[0]) && !IsJsSpace(r[|r| - 1]))
  {
    var t := TrimStart(s);
    var r := TrimEnd(t);
    ShapeFromParts(s, t, r);
    r
  }

  /** Whitespace, then `t`, is `s`; `r`, then whitespace, is `t`: so `s`
      is whitespace, `r`, whitespace. */
  lemma ShapeFromParts(s: string, t: string, r: string)
    requires |t| <= |s| && t == s[|s| - |t|..] && AllSpace(s[..|s| - |t|])
    requires |r| <= |t| && r == t[..|r|] && AllSpace(t[|r|..])
    ensures TrimmedAt(r, s, |s| - |t|, |s| - |t| + |r|)
    ensures r != [] ==> r[0] == t[0]
  {
    SliceOfSuffix(s, |s| - |t|, t, r);
  }

  /** A prefix `r` of a suffix `t` of `s` is a slice of `s`, and what
      follows it in `t` is what follows it in `s`. */
  lemma SliceOfSuffix(s: string, i: nat, t: string, r: string)
    requires i <= |s| && t == s[i..] && |r| <= |t| && r == t[..|r|]
    ensures r == s[i..i + |r|] && t[|r|..] == s[i + |r|..]
  {
  }

  /** Trimming a trimmed string changes nothing. */
  lemma TrimIdempotent(s: string)
    ensures Trim(Trim(s)) == Trim(s)
  {
    var r := Trim(s);
    if r != [] {
      assert !IsJsSpace(r[0]) && !IsJsSpace(r[|r| - 1]);
      assert TrimStart(r) == r;
      assert TrimEnd(r) == r;
    }
  }

  /** `s.startsWith(p)`. */
  predicate StartsWith(s: string, p: string) {
    |p| <= |s| && s[..|p|] == p
  }

  /** `s.endsWith(p)`. */
  predicate EndsWith(s: string, p: string) {
    |p| <= |s| && s[|s| - |p|..] == p
  }

  /** `sub` occurs in `s` at position `i`. */
  predicate OccursAt(s: string, sub: string, i: int) {
    0 <= i && i + |sub| <= |s| && s[i..i + |sub|] == sub
  }

  /** `s.includes(sub)`, computed by scanning from the left. */
  function Includes(s: string, sub: string): (b: bool)
    ensures b <==> exists i :: OccursAt(s, sub, i)
    decreases |s|
  {
    if StartsWith(s, sub) then
      assert OccursAt(s, sub, 0);
      true
    else if s == [] then
      assert forall i :: !OccursAt(s, sub, i);
      false
    else
      var b := Includes(s[1..], sub);
      assert b <==> exists i :: OccursAt(s, sub, i) by {
        if b {
          var i :| OccursAt(s[1..], sub, i);
          OccursShift(s, sub, i);
        } else {
          forall i | OccursAt(s, sub, i) ensures false {
            assert i != 0;
            OccursShift(s, sub, i - 1);
          }
        }
      }
      b
  }

  /** An occurrence in the tail is an occurrence one further in the whole. */
  lemma OccursShift(s: string, sub: string, i: int)
    requires s != [] && 0 <= i
    ensures OccursAt(s[1..], sub, i) <==> OccursAt(s, sub, i + 1)
  {
    if i + |sub| <= |s| - 1 {
      assert s[1..][i..i + |sub|] == s[i + 1..i + 1 + |sub|];
    }
  }

  /** Position of the first `c` in `s`, or |s| if there is none. */
  function IndexOf(s: string, c: char): (i: nat)
    ensures i <= |s|
    ensures i < |s| ==> s[i] == c
    ensures forall k :: 0 <= k < i ==> s[k] != c
  {
    if s == [] then 0
    else if s[0] == c then 0
    else 1 + IndexOf(s[1..], c)
  }

  /** The first `c` is at `i` when `s[i]` is `c` and no earlier character is. */
  lemma {:induction false} IndexOfFirst(s: string, c: char, i: nat)
    requires i < |s| && s[i] == c
    requires forall k :: 0 <= k < i ==> s[k] != c
    ensures IndexOf(s, c) == i
  {
    if i > 0 {
      IndexOfFirst(s[1..], c, i - 1);
    }
  }

  /** `s.replace(from, to)` with one-character strings: only the FIRST
      occurrence is replaced. */
  function ReplaceFirst(s: string, from: char, to: char): (r: string)
    ensures |r| == |s|
    ensures from !in s ==> r == s
    ensures from in s ==>
              var i := IndexOf(s, from);
              r == s[..i] + [to] + s[i + 1..]
  {
    var i := IndexOf(s, from);
    if i == |s| then s else s[..i] + [to] + s[i + 1..]
  }

  /** Number of occurrences of `c` in `s`. */
  function Count(s: string, c: char): nat {
    if s == [] then 0
    else (if s[0] == c then 1 else 0) + Count(s[1..], c)
  }

  lemma {:induction false} CountAppend(a: string, b: string, c: char)
    ensures Count(a + b, c) == Count(a, c) + Count(b, c)
  {
    if a == [] {
      assert a + b == b;
    } else {
      assert (a + b)[1..] == a[1..] + b;
      CountAppend(a[1..], b, c);
    }
  }

  lemma {:induction false} CountBeforeFirst(s: string, c: char)
    ensures Count(s[..IndexOf(s, c)], c) == 0
  {
    if s != [] && s[0] != c {
      CountBeforeFirst(s[1..], c);
      assert s[..IndexOf(s, c)] == [s[0]] + s[1..][..IndexOf(s[1..], c)];
      CountAppend([s[0]], s[1..][..IndexOf(s[1..], c)], c);
    }
  }

  /** Replacing the first `from` by a different character removes exactly
      one `from`: every later occurrence survives. */
  lemma ReplaceFirstRemovesOne(s: string, from: char, to: char)
    requires from in s && from != to
    ensures Count(ReplaceFirst(s, from, to), from) == Count(s, from) - 1
    ensures Count(ReplaceFirst(s, from, to), to) == Count(s, to) + 1
  {
    var i := IndexOf(s, from);
    assert s == s[..i] + [from] + s[i + 1..];
    CountAppend(s[..i] + [from], s[i + 1..], from);
    CountAppend(s[..i], [from], from);
    CountAppend(s[..i] + [to], s[i + 1..], from);
    CountAppend(s[..i], [to], from);
    CountAppend(s[..i] + [from], s[i + 1..], to);
    CountAppend(s[..i], [from], to);
    CountAppend(s[..i] + [to], s[i + 1..], to);
    CountAppend(s[..i], [to], to);
    CountBeforeFirst(s, from);
  }

  // ---- integers as decimal text --------------------------------------------

  predicate IsDigit(c: char) {
    '0' <= c <= '9'
  }

  predicate AllDigits(s: string) {
    forall i :: 0 <= i < |s| ==> IsDigit(s[i])
  }

  function DigitChar(d: nat): (c: char)
    requires d < 10
    ensures IsDigit(c) && (c as int) - ('0' as int) == d
  {
    ['0', '1', '2', '3', '4', '5', '6', '7', '8', '9'][d]
  }

  /** Decimal rendering of a natural number, as `${n}` produces it for an
      integral number below 10^21: digits only, no leading zero. */
  function NatToString(n: nat): (s: string)
    ensures |s| >= 1 && AllDigits(s)
    ensures |s| > 1 ==> s[0] != '0'
  {
    if n < 10 then [DigitChar(n)]
    else NatToString(n / 10) + [DigitChar(n % 10)]
  }

  /** `${n}` for an integral number: a minus sign, then the digits. */
  function IntToString(n: int): (s: string)
    ensures |s| >= 1
    ensures n >= 0 ==> AllDigits(s)
    ensures n < 0 ==> s[0] == '-' && AllDigits(s[1..])
  {
    if n < 0 then "-" + NatToString(-n) else NatToString(n)
  }

  /** Reads a string of decimal digits back as a number. */
  function ParseNat(s: string): nat
    requires AllDigits(s)
  {
    if s == [] then 0
    else 10 * ParseNat(s[..|s| - 1]) + ((s[|s| - 1] as int) - ('0' as int))
  }

  /** Decimal rendering loses nothing: parsing it gives the number back. */
  lemma {:induction false} ParseNatToString(n: nat)
    ensures ParseNat(NatToString(n)) == n
  {
    if n >= 10 {
      var s := NatToString(n);
      assert s[..|s| - 1] == NatToString(n / 10);
      ParseNatToString(n / 10);
    }
  }

  /** An optional minus sign followed by at least one digit. */
  predicate IsIntText(s: string) {
    if |s| >= 1 && s[0] == '-' then |s| >= 2 && AllDigits(s[1..])
    else |s| >= 1 && AllDigits(s)
  }

  /** Reads a signed decimal text back as an integer. */
  function ParseInt(s: string): int
    requires IsIntText(s)
  {
    if s[0] == '-' then -(ParseNat(s[1..]) as int) else ParseNat(s)
  }

  /** Signed rendering loses nothing either, and always reads as an integer. */
  lemma ParseIntToString(n: int)
    ensures IsIntText(IntToString(n))
    ensures ParseInt(IntToString(n)) == n
  {
    var m: nat := if n < 0 then -n else n;
    ParseNatToString(m);
    SignedRoundTrip(n, IntToString(n), NatToString(m));
  }

  /** A sign, if the number is negative, before the digits of its magnitude
      reads back as the number. */
  lemma SignedRoundTrip(n: int, s: string, t: string)
    requires |t| >= 1 && AllDigits(t) && ParseNat(t) == (if n < 0 then -n else n)
    requires s == (if n < 0 then "-" + t else t)
    ensures IsIntText(s) && ParseInt(s) == n
  {
    SignedDigits(t);
  }

  /** Digits read the same with or without a leading minus sign, up to sign. */
  lemma SignedDigits(t: string)
    requires |t| >= 1 && AllDigits(t)
    ensures IsIntText(t) && ParseInt(t) == ParseNat(t)
    ensures IsIntText("-" + t) && ParseInt("-" + t) == -(ParseNat(t) as int)
  {
    assert IsDigit(t[0]);
    assert ("-" + t)[1..] == t;
  }

  // ---- case --------------------------------------------------------------

  /** `toUpperCase` on one character, for the ASCII letters. */
  function ToUpper(c: char): (u: char)
    ensures 'a' <= c <= 'z' ==> 'A' <= u <= 'Z' && (u as int) == (c as int) - 32
    ensures !('a' <= c <= 'z') ==> u == c
  {
    if 'a' <= c <= 'z' then (c as int - 32) as char else c
  }

  /** `s.charAt(0).toUpperCase() + s.slice(1)`: only the first character
      changes, and only when it is a lower-case letter. */
  function Capitalize(s: string): (r: string)
    ensures |r| == |s|
    ensures s != [] ==> r[0] == ToUpper(s[0]) && r[1..] == s[1..]
  {
    if s == [] then [] else [ToUpper(s[0])] + s[1..]
  }

  /** Capitalising twice is capitalising once. */
  lemma CapitalizeIdempotent(s: string)
    ensures Capitalize(Capitalize(s)) == Capitalize(s)
  {
  }
}

=== FILE: wrappers.dfy ===
/** The optional-value type used for every nullable column and every
    "may be absent" input of the model. */
module Wrappers {

  datatype Option<+T> = None | Some(value: T) {

    /** Returns the wrapped value, or `default` when absent. */
    function GetOr(default: T): T {
      match this
      case Some(v) => v
      case None => default
    }
  }
}
